=== FILE: README.md ===
# Locale registry and navigation bar, modelled in Dafny

This project models the localisation and navigation core of the
`visualization-ui` package:

- `lib/Locale.js`, the locale registry. It holds language packs keyed by code,
  the selected language and pack, message/attribute/external lookups with their
  fallback chains, the language-switch links (with the separator rule, the hash
  suffix, the active marking by pack identity and the canonical/alternate head
  links) and the in-place substitution of marked elements (`updateMessages`).
- `lib/locale.js`, the legacy registry with truthiness-based lookups and
  `?`-only links, kept as its own class so that the differences are stated as
  lemmas (`LocaleVersions`).
- `lib/Navbar.js`, the navigation bar. It covers the configuration merge,
  `html`, the `locale` and `link` resolvers, `icon`, the `build` dispatcher over
  the node types, `fill` with the hash-change refresh of the language links, the
  burger toggle and the fullscreen controls.

Modules:

- `Js` models JavaScript values. Property access and `in` can throw, which the
  `Outcome` datatype (`Returns`/`Throws`) makes explicit. The module also covers
  truthiness, `String(v)` and `Array.prototype.join`.
- `Urls` is a parsed URL reduced to base, ordered query parameters and
  fragment.
- `Packs` holds packs as objects, so reference equality is JavaScript's `==` on
  packs and two codes may alias one pack.
- `Locale`, `LegacyLocale`, `LocaleVersions` and `Navbar` hold the rest.

Foreign code enters as parameters:

- `vsprintf` is a `Formatter`.
- `new URL(text)` is a partial `Parser`; `new URL(text, base)` is `resolveUrl`.
- `mustache.escape` is `escape`.
- The literal markup of each template is `layout`, which receives the rendered
  parts of a node in the order the template interpolates them.
- The document location and its hash are arguments of `Fill` and `HashChange`.

The `fullscreen` event that `setFullscreen` dispatches carries no state: the call
passes `{isFullscreen}` as its options, but d3's `selection.dispatch` reads only
`bubbles`, `cancelable` and `detail` from them, so `detail` stays null. The model
counts the events; an observer reads the controls' `is-active` flags, as the
navbar test does.

The lookups of the current registry that read the selected pack (`message`,
`attribute` and `get`) throw a TypeError when `selectedLocale` is undefined
(`"messages" in undefined`, `undefined[name]`); `retrieve` reads only `specs` and
`lang` and does not. The model returns `Throws` where they throw.
`MessagesUnreadable` names the state in which `message` throws: no pack is
selected, or the pack's `messages` is a primitive (a string, number or boolean,
null included), which the `in` operator refuses.

## Model

| member | source | states |
|---|---|---|
| Urls.Search | lib/Locale.js:104 | the search string is empty exactly when no query parameter is left |
| Urls.RemoveNamed | lib/Locale.js:101 | deleting a parameter keeps exactly the parameters with another name |
| Urls.RemoveNamedIdempotent | lib/Locale.js:101 | deleting the same parameter twice equals deleting it once |
| Urls.CanonicalStable | lib/Navbar.js:150-151 | a URL stripped of the language parameter and hash is unchanged by stripping it again, as `generateNavigation` does to the canonical URL `fill` passes it |
| Locale.LinkBaseOf | lib/Locale.js:97-108 | a parsable page loses the query parameter and hash, and the separator is "?" iff every parameter was the language parameter; an unparsable page is kept, with "&" iff it contains '?' |
| Locale.UpdateNavigationLinks | lib/Locale.js:144-148 | one href per code, in order, each page + separator + query + ("=" if query non-empty) + code + hash |
| Locale.Locale.constructor | lib/Locale.js:25-29 | defaults to no packs and "en"; the selected pack is the one registered under lang, or none |
| Locale.Locale.Select | lib/Locale.js:32-38 | a registered code becomes lang and selects its pack; an unknown code changes nothing; the current pack is returned; the registry invariant is kept |
| Locale.Locale.MessageTemplate | lib/Locale.js:49 | the lookup throws exactly when no pack is selected or the pack's messages is a primitive |
| Locale.Locale.Message | lib/Locale.js:48-56 | a present template is formatted with the args; otherwise a defined fallback is returned, else the placeholder `msg(args)` or bare msg; never undefined; null exactly when the message is missing and the fallback is null |
| Locale.Locale.Attribute | lib/Locale.js:60-65 | it throws exactly when no pack is selected or the group is present but a primitive (`key in "English"`); a present attribute key gives its value even when falsy; a missing group or key gives the defined fallback, else the key |
| Locale.Locale.Retrieve | lib/Locale.js:71-80 | an undefined key counts as the default null; the current-language entry is returned for a null key, or indexed by a string key when it is an object; a missing entry or key gives the defined fallback, else the key; a null entry with a key throws; the result is never undefined |
| Locale.Locale.Get | lib/Locale.js:83-85 | returns the named field of the pack registered under lang; throws when lang has no pack |
| Locale.Locale.GenerateNavigation | lib/Locale.js:93-142 | one entry per registered code in key order; its hrefs are those of `updateNavigationLinks`; hreflang is the code and the text the pack's language; the item or the link (per linkActive) is "is-active" iff its pack is the selected pack (so aliases are all active) plus the extra class, the other element unmarked; head links exist iff the page parsed |
| Locale.Locale.Replacement | lib/Locale.js:165-176 | the element is left untouched exactly when the message is missing and the fallback is null; otherwise the replacement is the string form of the message; throws exactly when messages cannot be read |
| Locale.Locale.ContentUpdated | lib/Locale.js:159-169 | a marked element with readable messages gets the string form of its message (with its children as arguments) as content, and is kept as it is when the message is null; markers, children and attributes unchanged; identity when messages cannot be read or the element is unmarked |
| Locale.Locale.AttributeUpdated | lib/Locale.js:171-177 | a marked element with readable messages gets the attribute set to the string form of its message, and is kept when the message is null; no other attribute changes and no other key appears; identity when unmarked or unreadable |
| Locale.Locale.AttributesUpdated | lib/Locale.js:170-178 | the attribute passes applied in order keep the markers, content and children, and change nothing when messages cannot be read |
| Locale.Locale.AttributesUpdatedKeys | lib/Locale.js:170-178 | after the passes, every attribute was already there or is one of the names |
| Locale.Locale.AttributesUpdatedKeeps | lib/Locale.js:170-178 | an attribute outside the names, or without a marker, keeps its value through the passes |
| Locale.Locale.AttributesUpdatedWrites | lib/Locale.js:170-178 | a marked name among the passes ends holding the string form of its message, or keeps its attribute (present or absent) when the message is null |
| Locale.Locale.UpdateContent | lib/Locale.js:163-168 | at one element: fails exactly when messages cannot be read and the element has a message marker; exactly that element becomes its content-updated form |
| Locale.Locale.ContentPass | lib/Locale.js:159-169 | every element becomes its content-updated form; it stops exactly when messages are unreadable and some element has a message marker |
| Locale.Locale.UpdateAttribute | lib/Locale.js:172-176 | at one element: fails exactly when messages cannot be read and the element has that attribute's marker; exactly that element becomes its attribute-updated form |
| Locale.Locale.AttributePass | lib/Locale.js:171-177 | every element becomes its attribute-updated form; it stops exactly when messages are unreadable and some element has that attribute's marker |
| Locale.Locale.NextAttributePass | lib/Locale.js:171-177 | the pass for the next name takes every element from its updated form over the earlier names to its updated form over one more name; it stops exactly when messages are unreadable and some element had that marker to begin with |
| Locale.Locale.AttributePasses | lib/Locale.js:170-178 | the passes over all names in order; it stops exactly when messages are unreadable and some attribute marker exists |
| Locale.Locale.UpdateMessages | lib/Locale.js:154-179 | each element ends as content pass then attribute passes of its old form; it stops iff messages are unreadable and some element is marked, and then nothing has changed |
| LegacyLocale.Locale.constructor | lib/locale.js:23-27 | same defaults and invariant as the current registry |
| LegacyLocale.Locale.Select | lib/locale.js:30-36 | changes lang and pack only for a registered code and returns the current pack |
| LegacyLocale.Locale.Message | lib/locale.js:44-50 | a truthy template is formatted; a falsy one (missing: undefined) or falsy messages is returned as is; throws only without a pack |
| LegacyLocale.Locale.Attribute | lib/locale.js:54-57 | it throws exactly without a pack; the stored value when the group is an object holding a truthy value at the key; the key when the group is falsy, or an object without a truthy value at the key; the result is always truthy or the key |
| LegacyLocale.Locale.Retrieve | lib/locale.js:62-68 | an undefined key counts as the default null; the current-language entry, indexed by a string key only when truthy; undefined is returned as is; throws only for an undefined or null external |
| LegacyLocale.Locale.Get | lib/locale.js:71-73 | the named field of the selected pack; throws without one |
| LegacyLocale.Locale.GenerateNavigation | lib/locale.js:79-93 | one entry per code in order, href page + "?" + (query + "=" if query) + code, text the language, item active iff same pack |
| LegacyLocale.Locale.Updated | lib/locale.js:103-110 | content is replaced exactly when the element is marked and its message is truthy |
| LegacyLocale.Locale.UpdateMessages | lib/locale.js:98-111 | every element becomes its updated form; stops iff no pack is selected and some element is marked |
| LocaleVersions.TruthyTemplatesAgree | lib/locale.js:45-47 | for the same state, a truthy template is formatted identically by both registries |
| LocaleVersions.MissingMessageDiffers | lib/locale.js:45-49 | a missing message: placeholder in the current registry, undefined in the legacy one |
| LocaleVersions.AttributeValues | lib/locale.js:55-56 | a falsy stored attribute is returned by the current registry but replaced by the key in the legacy one |
| LocaleVersions.RetrieveMissingLanguage | lib/locale.js:62-67 | without an entry for lang, the current retrieve gives the key (null for an undefined key), the legacy one undefined |
| LocaleVersions.HrefsAgreeOnBarePages | lib/locale.js:89 | on an unparsable page without '?' and with no hash, both versions give the same href |
| LocaleVersions.HrefsDifferOnPagesWithQuery | lib/locale.js:89 | on an unparsable page with '?', the legacy href adds a second '?' where the current one uses '&' |
| Navbar.Configure | lib/Navbar.js:25-39 | the caller's keys override, every other default key stays, keys are the union |
| Navbar.Repeat | lib/Navbar.js:65 | `s.repeat(n)` has n times the length of s |
| Navbar.RepeatAppend | lib/Navbar.js:65 | repeating m + n times is repeating m times followed by repeating n times |
| Navbar.RepeatOnce | lib/Navbar.js:65 | one repetition is the string itself |
| Navbar.BurgerBarsExample | tests/navbar.js:54 | three lines give three bars, one after the other |
| Navbar.RepeatCount | lib/Navbar.js:65 | a negative number of lines is a RangeError, other numbers are the count, undefined and null are 0 |
| Navbar.DigitsValueOfNatToString | lib/Navbar.js:65 | the decimal form of a count reads back as that count |
| Navbar.RepeatCountOfString | lib/Navbar.js:65 | a count given as its decimal string repeats as often as the number itself |
| Navbar.IconPartsAppend | lib/Navbar.js:123 | a further part adds its "fa-" class name at the end of the class names |
| Navbar.IconClassesAppend | lib/Navbar.js:123 | each part after the first adds " fa-" and the part |
| Navbar.IconClassesSingle | lib/Navbar.js:123 | a single part is kept as is |
| Navbar.IconClassesExample | tests/navbar.js:58 | ["fas", "arrows-alt"] gives "fas fa-arrows-alt" |
| Navbar.HashChangeMatchesGenerate | lib/Navbar.js:156-161 | for a canonical URL that reads back as itself, the hash-change hrefs equal those of a fresh navigation for the new hash |
| Navbar.LanguageLinksExample | tests/navbar.js:104-110 | the canonical `https://example.test/index.html?x=y` with query l and hash #abc gives `...?x=y&l=en#abc` and `...&l=nl#abc` |
| Navbar.Toggle | lib/Navbar.js:170-179 | both flags become the negation of the target's flag and aria-expanded is "true" iff open |
| Navbar.ToggleTwice | tests/navbar.js:142-155 | two clicks restore a synchronised state |
| Navbar.BurgerControl.constructor | lib/Navbar.js:64 | a rendered burger is closed with aria-expanded "false" |
| Navbar.BurgerControl.Click | lib/Navbar.js:170-179 | a click applies the toggle |
| Navbar.FullscreenControls.constructor | lib/Navbar.js:53-57 | rendered controls are inactive |
| Navbar.FullscreenControls.SetFullscreen | lib/Navbar.js:182-187 | every control's flag becomes the argument, and one more `fullscreen` event is dispatched on the container; the event carries no state |
| Navbar.FullscreenControls.Click | lib/Navbar.js:192-226 | the click asks for an exit iff the control is active, and changes no flag |
| Navbar.Navbar.constructor | lib/Navbar.js:38-40 | the configuration is the merge of defaults and the caller's |
| Navbar.Navbar.Html | lib/Navbar.js:34-36 | undefined gives "", anything else its escaped string form |
| Navbar.Navbar.Resolve | lib/Navbar.js:90-95 | strings and undefined pass through; an object gives its current-language entry, else its `en` entry, else null; numbers and booleans give null; throws exactly on null |
| Navbar.Navbar.Link | lib/Navbar.js:97-115 | arrays concatenate their parts' targets; `{config}` reads the configuration; `{locale: "lang"}` is the language, `{locale}` a pack field; other objects go through `locale`; non-objects pass through; null throws |
| Navbar.Navbar.LinkAll | lib/Navbar.js:101 | the parts' targets in order; it fails iff some part fails |
| Navbar.Navbar.LinkAllConcat | lib/Navbar.js:101 | the targets of two part lists placed one after the other are the two lists of targets concatenated |
| Navbar.Navbar.LinkConcat | lib/Navbar.js:101 | the target of a concatenated array is the concatenation of the two targets |
| Navbar.Navbar.Icon | lib/Navbar.js:117-126 | undefined gives ""; arrays give the escaped icon class list; other values are escaped as they are |
| Navbar.Navbar.Build | lib/Navbar.js:128-139 | a non-array object renders as escaped locale text; an array as its items' renderings joined by "\n"; undefined, numbers and booleans as ""; null throws |
| Navbar.Navbar.BuildItems | lib/Navbar.js:133-138 | one rendering per item in order; it fails iff some item fails |
| Navbar.Navbar.RenderItem | lib/Navbar.js:134-137 | an object of unknown type renders as ""; undefined and null items throw |
| Navbar.Navbar.Render | lib/Navbar.js:134-137 | the type of the item, merged over the trigger defaults for a dropdown's link, picks the template; unknown types give ""; a divider is its bare template; text is the escaped locale text |
| Navbar.Navbar.RenderNode | lib/Navbar.js:41-87 | a divider fills its template with no parts; a text node is the escaped locale text of its `text` field, and throws when that is null |
| Navbar.Navbar.SiblingsStillRender | lib/Navbar.js:133-138 | an unknown-type item contributes "" at its place and leaves its siblings' renderings unchanged |
| Navbar.Navbar.BuildItemsConcat | lib/Navbar.js:133 | the renderings of a concatenation are the concatenated renderings |
| Navbar.Navbar.BuildConcat | lib/Navbar.js:138 | two non-empty arrays built together are their markups joined by "\n" |
| Navbar.Navbar.InvalidTypeExample | tests/navbar.js:112-127 | `[{type: "invalid"}]` renders as "" |
| Navbar.Navbar.CanonicalUrl | lib/Navbar.js:146-150 | the canonical URL exists exactly when the language page resolves against the base URL, and then it has no hash and no language parameter |
| Navbar.Navbar.Fill | lib/Navbar.js:141-167 | the markup becomes the built structure, and the old language links go with the old markup; a throw while building leaves the state unchanged; with a languages container and a canonical URL that resolves and parses again, the navigation has one link per code with the fresh-navigation hrefs, "navbar-item" and active marking on the link, and the canonical URL is kept for the hash-change listener; otherwise it throws and leaves the new markup with no navigation |
| Navbar.Navbar.FillLanguages | lib/Navbar.js:145-156 | the markup is kept; when the language page does not resolve, or the canonical URL does not parse again inside `generateNavigation` (lib/Locale.js:99-108, where `includes` is then called on a URL object), it throws with the navigation and canonical URL unchanged; otherwise the canonical URL is kept and the navigation has one link per code with the fresh-navigation hrefs, "navbar-item" and active marking on the link |
| Navbar.Navbar.HashChange | lib/Navbar.js:156-162 | every link of the generated language navigation gets canonical + ("?" iff no parameters) + query + code + the new hash; the markup and the canonical URL are kept (other anchors under the languages container are left out) |

## Left out

- `Locale.locale()` and the legacy `locale()` (`d3.formatLocale`) are left out: they are a foreign library call.
- The `vsprintf` substitution rules and its errors on too few arguments are left out. The formatter is a parameter.
- Navbar.Navbar.HashChange: rewrites only the language links that `generateNavigation` created. The source rewrites every anchor under the languages container (`languages.selectAll('a')`), so an anchor of the rendered structure inside that container, such as a dropdown link whose `id` is the languages selector, would also get an href ending in `=undefined` plus the hash; the model keeps `markup` unchanged and does not capture that.
- WHATWG URL parsing is left out: relative resolution, percent-encoding of re-serialised parameters, and a present but empty query (`page?`). The parser is a parameter. `HashChangeMatchesGenerate` assumes that the canonical URL reads back as itself.
- Inherited prototype properties are left out, for example `"toString" in specs` or the type `toString` in the `types` table. Only own keys are modelled.
- Numbers are integers. Fractions, NaN and Infinity are left out, and so are string-to-number conversions for the burger's `lines` beyond plain decimal digits with an optional minus sign.
- Locale.Locale.UpdateMessages: is modelled on a flat array of marked elements. It leaves out three things: parsing the replacement markup and the recursive call on it, the `contains` check that skips elements detached by an earlier replacement, and setting `lang` on the document root when no selection is given.
- Locale.Locale.GenerateNavigation: starts from an empty container. It leaves out the d3 join reusing elements, and the classes they keep, from an earlier call.
- Locale.ActiveClasses: treats the extra class string as one class name (or none when empty). It does not split it on whitespace.
- The `_.assign` merge of a dropdown's `link` takes fields only from objects. Copying indexed characters from a string `link` is left out.
- Navbar.Navbar.Fill: leaves out three things:
  - whether the languages selector finds an element;
  - the `window` and `document` configuration entries, which are platform objects;
  - installing the burger and fullscreen listeners, which the `BurgerControl` and `FullscreenControls` classes model instead.

  A non-string `language_query` is taken through `String(...)`, so its truthiness as a non-string is not modelled.
- Repeated `fill` calls accumulate hash-change listeners. This is left out because it is event-loop plumbing.
- The vendor-prefixed fullscreen request and exit calls and the `fullscreenchange` listeners are left out because they are platform I/O. The listeners' effect is `SetFullscreen`.
- `console.log` for invalid types is left out because it is a diagnostic only.
- Navbar.Navbar.RenderNode: states the divider and text cases in its contract. The remaining node types are stated only by its body, because their markup is the `layout` parameter.

=== FILE: js.dfy ===
/**
 * The slice of JavaScript's value semantics that the locale registry and the
 * navigation bar depend on: JSON-like values, truthiness, property access
 * (which throws a TypeError on `undefined` and `null`), the `in` operator,
 * string conversion and `Array.prototype.join`.
 */
module Js {

  datatype Option<+T> = None | Some(value: T)

  /** The outcome of evaluating an expression that may throw (a TypeError or RangeError). */
  datatype Outcome<+T> = Returns(value: T) | Throws {
    predicate IsFailure() { Throws? }

    function PropagateFailure<U>(): Outcome<U>
      requires Throws?
    {
      Throws
    }

    function Extract(): T
      requires Returns?
    {
      value
    }
  }

  /** A JSON value as JavaScript sees it; numbers are restricted to integers. */
  datatype Value =
    | Undefined
    | Null
    | Bool(b: bool)
    | Num(n: int)
    | Str(s: string)
    | Obj(fields: map<string, Value>)
    | Arr(items: seq<Value>)

  /** JavaScript truthiness: `undefined`, `null`, `false`, `0` and `""` are falsy. */
  predicate Truthy(v: Value)
  {
    match v
    case Undefined => false
    case Null => false
    case Bool(b) => b
    case Num(n) => n != 0
    case Str(s) => s != ""
    case _ => true
  }

  function DigitChar(d: nat): char
    requires d < 10
  {
    "0123456789"[d]
  }

  /** The decimal form of a natural number, as `String(n)` writes it. */
  function NatToString(n: nat): (r: string)
    ensures |r| > 0
    decreases n
  {
    if n < 10 then [DigitChar(n)] else NatToString(n / 10) + [DigitChar(n % 10)]
  }

  function IntToString(n: int): string
  {
    if n < 0 then "-" + NatToString(-n) else NatToString(n)
  }

  /** The array index that `key` names, if it names one below `n`. */
  function IndexKey(key: string, n: nat): (r: Option<nat>)
    ensures r.Some? ==> r.value < n && NatToString(r.value) == key
    ensures r.None? ==> forall i: nat :: i < n ==> NatToString(i) != key
    decreases n
  {
    if n == 0 then None
    else if NatToString(n - 1) == key then Some(n - 1)
    else IndexKey(key, n - 1)
  }

  /** `String(v)`; arrays join their elements with "," and show `null`/`undefined` as "". */
  function ToString(v: Value): string
  {
    match v
    case Undefined => "undefined"
    case Null => "null"
    case Bool(b) => if b then "true" else "false"
    case Num(n) => IntToString(n)
    case Str(s) => s
    case Obj(_) => "[object Object]"
    case Arr(items) =>
      JoinStrings(seq(|items|, i requires 0 <= i < |items| =>
                        if items[i] == Undefined || items[i] == Null then "" else ToString(items[i])), ",")
  }

  /** How `Array.prototype.join` and DOM text show one value: `null` and `undefined` become "". */
  function JoinPart(v: Value): string
  {
    if v == Undefined || v == Null then "" else ToString(v)
  }

  function JoinStrings(ss: seq<string>, sep: string): string
  {
    if |ss| == 0 then ""
    else if |ss| == 1 then ss[0]
    else ss[0] + sep + JoinStrings(ss[1..], sep)
  }

  /** `vs.join(sep)`. */
  function JoinValues(vs: seq<Value>, sep: string): string
  {
    JoinStrings(seq(|vs|, i requires 0 <= i < |vs| => JoinPart(vs[i])), sep)
  }

  /** Joining two non-empty lists puts exactly one separator between their joins. */
  lemma {:induction false} JoinStringsAppend(a: seq<string>, b: seq<string>, sep: string)
    requires |a| > 0 && |b| > 0
    ensures JoinStrings(a + b, sep) == JoinStrings(a, sep) + sep + JoinStrings(b, sep)
  {
    if |a| == 1 {
      assert (a + b)[1..] == b;
    } else {
      assert (a + b)[1..] == a[1..] + b;
      JoinStringsAppend(a[1..], b, sep);
    }
  }

  /** With the empty separator, joining is plain concatenation, including of empty lists. */
  lemma JoinValuesConcat(a: seq<Value>, b: seq<Value>)
    ensures JoinValues(a + b, "") == JoinValues(a, "") + JoinValues(b, "")
  {
    var pa := seq(|a|, i requires 0 <= i < |a| => JoinPart(a[i]));
    var pb := seq(|b|, i requires 0 <= i < |b| => JoinPart(b[i]));
    assert seq(|a + b|, i requires 0 <= i < |a + b| => JoinPart((a + b)[i])) == pa + pb;
    if |a| == 0 {
      assert pa + pb == pb;
    } else if |b| == 0 {
      assert pa + pb == pa;
    } else {
      JoinStringsAppend(pa, pb, "");
    }
  }

  /** `v[key]`: reading a property of `undefined` or `null` throws a TypeError. */
  function Get(v: Value, key: string): Outcome<Value>
  {
    match v
    case Undefined => Throws
    case Null => Throws
    case Obj(m) => Returns(if key in m then m[key] else Undefined)
    case Arr(items) =>
      if key == "length" then Returns(Num(|items|))
      else var i := IndexKey(key, |items|);
           Returns(if i.Some? then items[i.value] else Undefined)
    case Str(s) =>
      if key == "length" then Returns(Num(|s|))
      else var i := IndexKey(key, |s|);
           Returns(if i.Some? then Str([s[i.value]]) else Undefined)
    case _ => Returns(Undefined)
  }

  /** `key in v`: only objects and arrays may stand on the right of `in`. */
  function Has(v: Value, key: string): (r: Outcome<bool>)
    ensures r.Throws? <==> !(v.Obj? || v.Arr?)
  {
    match v
    case Obj(m) => Returns(key in m)
    case Arr(items) => Returns(key == "length" || IndexKey(key, |items|).Some?)
    case _ => Throws
  }

  /** The own entries of an object; other values contribute none (as a source of `Object.assign`). */
  function FieldsOf(v: Value): map<string, Value>
  {
    if v.Obj? then v.fields else map[]
  }

  /** The entry of `m` under `key`, or `undefined`. */
  function Entry(m: map<string, Value>, key: string): Value
  {
    if key in m then m[key] else Undefined
  }

  /** The nesting depth of a value; it measures the recursion of the navbar renderer. */
  ghost function Depth(v: Value): (d: nat)
    ensures v.Arr? ==> forall i :: 0 <= i < |v.items| ==> Depth(v.items[i]) < d
  {
    match v
    case Obj(m) => 1 + MaxOf(set k | k in m :: Depth(m[k]))
    case Arr(s) =>
      var ds := set i | 0 <= i < |s| :: Depth(s[i]);
      assert forall i :: 0 <= i < |s| ==> Depth(s[i]) in ds;
      1 + MaxOf(ds)
    case _ => 0
  }

  ghost function MaxOf(s: set<nat>): (r: nat)
    ensures forall y :: y in s ==> y <= r
    ensures s != {} ==> r in s
  {
    if s == {} then 0
    else
      var x :| x in s;
      var rest := MaxOf(s - {x});
      assert forall y :: y in s ==> y == x || y in s - {x};
      if x < rest then rest else x
  }

  lemma DepthOfField(m: map<string, Value>, k: string)
    requires k in m
    ensures Depth(m[k]) < Depth(Obj(m))
  {
    var ds := set k' | k' in m :: Depth(m[k']);
    assert Depth(m[k]) in ds;
    assert Depth(Obj(m)) == 1 + MaxOf(ds);
  }
}

=== FILE: legacy_locale.dfy ===
/**
 * The earlier locale registry of lib/locale.js. It keeps the same state as the
 * current registry but its lookups fall back on truthiness: no fallback
 * parameter, no placeholder for a missing message, and language links always
 * joined with "?".
 */
module LegacyLocale {
  import opened Js
  import opened Packs
  import Current = Locale

  /** The `href` of the legacy link to language `code`. */
  function LegacyHref(page: string, query: string, code: string): string
  {
    page + "?" + (if query != "" then query + "=" else "") + code
  }

  /** One appended `li` with its `a`: the code, `href`, text and whether the item is active. */
  datatype LegacyEntry = LegacyEntry(code: string, href: string, text: string, active: bool)

  class Locale {
    const specs: Specs
    var lang: string
    var selectedLocale: Pack?

    ghost predicate Valid()
      reads this
    {
      specs.Valid() && selectedLocale == specs.PackOf(lang)
    }

    constructor (specs: Specs := Specs([], map[]), lang: string := "en")
      requires specs.Valid()
      ensures Valid()
      ensures this.specs == specs && this.lang == lang
    {
      this.specs := specs;
      this.lang := lang;
      this.selectedLocale := specs.PackOf(lang);
    }

    /** Switches to a registered language; an unknown code changes nothing. */
    method Select(code: string) returns (pack: Pack?)
      requires Valid()
      modifies this
      ensures Valid()
      ensures code in specs.packs ==> lang == code && selectedLocale == specs.packs[code]
      ensures code !in specs.packs ==> lang == old(lang) && selectedLocale == old(selectedLocale)
      ensures pack == selectedLocale
    {
      if code in specs.packs {
        lang := code;
        selectedLocale := specs.packs[code];
      }
      pack := selectedLocale;
    }

    /** `message(msg, args)`: the formatted template when it is truthy, otherwise the falsy
      * value that was found (a missing message is `undefined`). */
    function Message(msg: string, args: Current.Args, format: Current.Formatter): (r: Outcome<Value>)
      reads this
      ensures r.Throws? <==> selectedLocale == null
      ensures selectedLocale != null && Truthy(Field(selectedLocale, "messages")) ==>
                var t := Js.Get(Field(selectedLocale, "messages"), msg);
                t.Returns? && r == Returns(if Truthy(t.value) then Str(format(t.value, args)) else t.value)
      ensures selectedLocale != null && !Truthy(Field(selectedLocale, "messages")) ==>
                r == Returns(Field(selectedLocale, "messages"))
    {
      if selectedLocale == null then Throws
      else
        var messages := Field(selectedLocale, "messages");
        if !Truthy(messages) then Returns(messages)
        else
          var result := Js.Get(messages, msg).value;
          Returns(if Truthy(result) then Str(format(result, args)) else result)
    }

    /** `attribute(name, key)`: the stored value when it is truthy, otherwise `key`. */
    function Attribute(name: string, key: string): (r: Outcome<Value>)
      reads this
      ensures r.Throws? <==> selectedLocale == null
      ensures r.Returns? ==> Truthy(r.value) || r.value == Str(key)
      ensures selectedLocale != null && Field(selectedLocale, name).Obj?
              && Truthy(Entry(Field(selectedLocale, name).fields, key)) ==>
                r == Returns(Field(selectedLocale, name).fields[key])
      ensures selectedLocale != null && !Truthy(Field(selectedLocale, name)) ==> r == Returns(Str(key))
      ensures selectedLocale != null && Field(selectedLocale, name).Obj?
              && !Truthy(Entry(Field(selectedLocale, name).fields, key)) ==>
                r == Returns(Str(key))
    {
      if selectedLocale == null then Throws
      else
        var group := Field(selectedLocale, name);
        if !Truthy(group) then Returns(Str(key))
        else
          var v := Js.Get(group, key).value;
          Returns(if Truthy(v) then v else Str(key))
    }

    /** `retrieve(external, key)`: the current-language entry, indexed by `key` only when it
      * is truthy and `key` is not null (an explicit `undefined` key takes the default, `null`);
      * `undefined` is returned as is. */
    function Retrieve(external: Value, key: Value := Null): (r: Outcome<Value>)
      reads this
      ensures r.Throws? <==> external == Undefined || external == Null
      ensures external.Obj? && (key == Null || key == Undefined || !Truthy(Entry(external.fields, lang))) ==>
                r == Returns(Entry(external.fields, lang))
      ensures external.Obj? && Entry(external.fields, lang).Obj? && key.Str? ==>
                r == Returns(Entry(Entry(external.fields, lang).fields, key.s))
    {
      var k := if key == Undefined then Null else key;
      var result :- Js.Get(external, lang);
      if Truthy(result) && k != Null then Js.Get(result, ToString(k)) else Returns(result)
    }

    /** `get(name)`: the raw entry of the selected pack. */
    function Get(name: string): (r: Outcome<Value>)
      reads this
      ensures Valid() && lang in specs.packs ==> r == Returns(Field(specs.packs[lang], name))
      ensures Valid() && lang !in specs.packs ==> r == Throws
    {
      if selectedLocale == null then Throws else Returns(Field(selectedLocale, name))
    }

    /** `generateNavigation(nav, page, query)`: appends a list with one entry per code in key
      * order; an item is active when its pack is the selected pack. */
    method GenerateNavigation(page: string := "", query: string := "") returns (entries: seq<LegacyEntry>)
      requires Valid()
      ensures |entries| == |specs.codes|
      ensures forall i :: 0 <= i < |entries| ==>
                && entries[i].code == specs.codes[i]
                && entries[i].href == LegacyHref(page, query, specs.codes[i])
                && entries[i].text == JoinPart(Field(specs.packs[specs.codes[i]], "language"))
                && (entries[i].active <==> specs.packs[specs.codes[i]] == selectedLocale)
    {
      entries := [];
      for i := 0 to |specs.codes|
        invariant |entries| == i
        invariant forall k :: 0 <= k < i ==>
                    && entries[k].code == specs.codes[k]
                    && entries[k].href == LegacyHref(page, query, specs.codes[k])
                    && entries[k].text == JoinPart(Field(specs.packs[specs.codes[k]], "language"))
                    && (entries[k].active <==> specs.packs[specs.codes[k]] == selectedLocale)
      {
        var code := specs.codes[i];
        var pack := specs.packs[code];
        entries := entries + [LegacyEntry(code, LegacyHref(page, query, code),
                                          JoinPart(Field(pack, "language")), pack == selectedLocale)];
      }
    }

    /** Whether `updateMessages` replaces the content of `e`: it is marked and its message is truthy. */
    predicate Replaces(e: Current.MarkedElement, format: Current.Formatter)
      reads this
    {
      && e.message.Some?
      && Message(e.message.value, Current.ChildArgs(e), format).Returns?
      && Truthy(Message(e.message.value, Current.ChildArgs(e), format).value)
    }

    /** An element after `updateMessages`: its content is replaced only by a truthy message. */
    function Updated(e: Current.MarkedElement, format: Current.Formatter): (r: Current.MarkedElement)
      reads this
      ensures Replaces(e, format) ==>
                r == e.(content := Some(ToString(Message(e.message.value, Current.ChildArgs(e), format).value)))
      ensures !Replaces(e, format) ==> r == e
    {
      if e.message.None? then e
      else
        match Message(e.message.value, Current.ChildArgs(e), format)
        case Returns(m) => if Truthy(m) then e.(content := Some(ToString(m))) else e
        case Throws => e
    }

    /** `updateMessages(selection)` over the elements of the selection; it stops at the first
      * marked element when no pack is selected, before changing anything. */
    method UpdateMessages(elements: array<Current.MarkedElement>, format: Current.Formatter) returns (completed: bool)
      modifies elements
      ensures completed <==> selectedLocale != null || forall k :: 0 <= k < elements.Length ==> old(elements[k]).message.None?
      ensures forall k :: 0 <= k < elements.Length ==> elements[k] == Updated(old(elements[k]), format)
    {
      for i := 0 to elements.Length
        invariant forall k :: 0 <= k < i ==> elements[k] == Updated(old(elements[k]), format)
        invariant forall k :: i <= k < elements.Length ==> elements[k] == old(elements[k])
        invariant selectedLocale == null ==> forall k :: 0 <= k < i ==> old(elements[k]).message.None?
      {
        var e := elements[i];
        if e.message.Some? {
          var r := Message(e.message.value, Current.ChildArgs(e), format);
          if r.Throws? {
            return false;
          }
          if Truthy(r.value) {
            elements[i] := e.(content := Some(ToString(r.value)));
          }
        }
      }
      completed := true;
    }
  }
}

=== FILE: locale.dfy ===
/**
 * The locale registry of lib/Locale.js: the selected language pack, message,
 * attribute and external lookups with their fallback chains, the language
 * switch links and the in-place message substitution.
 */
module Locale {
  import opened Js
  import opened Urls
  import opened Packs

  /** A message's argument list; `None` is a `null` or `undefined` list. */
  type Args = Option<seq<Value>>

  /** `vsprintf(template, args)` of the printf library, kept abstract. */
  type Formatter = (Value, Args) -> string

  /** `typeof v !== "undefined" ? v : otherwise`. */
  function DefinedOr(v: Value, otherwise: Value): Value
  {
    if v != Undefined then v else otherwise
  }

  /** What a missing message shows: `msg(a1,a2,...)`, or bare `msg` without arguments. */
  function Placeholder(msg: string, args: Args): string
  {
    if args.Some? && |args.value| > 0 then msg + "(" + JoinValues(args.value, ",") + ")" else msg
  }

  /** The page the language links start from, the separator before the language parameter,
    * and the cleaned URL when the page parsed as one. */
  datatype LinkBase = LinkBase(page: string, separator: string, url: Option<ParsedUrl>)

  /** The separator rule of `generateNavigation`. A parsable page loses the language
    * parameter and its hash and takes "&" only when other parameters remain; an
    * unparsable page is kept as it is and takes "&" only when it already has a "?". */
  function LinkBaseOf(page: string, query: string, parse: Parser): (b: LinkBase)
    ensures b.separator == "?" || b.separator == "&"
    ensures parse(page).None? ==>
              b.page == page && b.url == None && (b.separator == "&" <==> '?' in page)
    ensures parse(page).Some? ==>
              && b.url == Some(WithoutHash(WithoutParam(parse(page).value, query)))
              && b.page == Href(b.url.value)
              && (b.separator == "?" <==> forall p :: p in parse(page).value.params ==> p.name == query)
  {
    match parse(page)
    case Some(u) =>
      var c := WithoutHash(WithoutParam(u, query));
      assert c.params == [] <==> forall p :: p in u.params ==> p.name == query by {
        if c.params != [] {
          assert c.params[0] in c.params;
        }
      }
      LinkBase(Href(c), if Search(c) == "" then "?" else "&", Some(c))
    case None =>
      LinkBase(page, if '?' in page then "&" else "?", None)
  }

  /** The `href` of the link to language `code`. */
  function LinkHref(page: string, separator: string, query: string, code: string, hash: string): string
  {
    page + separator + query + (if query != "" then "=" else "") + code + hash
  }

  /** `updateNavigationLinks`: one `href` per link, from the code bound to it. */
  function UpdateNavigationLinks(codes: seq<string>, page: string, query: string, hash: string,
                                 separator: string): (hrefs: seq<string>)
    ensures |hrefs| == |codes|
    ensures forall i :: 0 <= i < |codes| ==> hrefs[i] == LinkHref(page, separator, query, codes[i], hash)
  {
    seq(|codes|, i requires 0 <= i < |codes| => LinkHref(page, separator, query, codes[i], hash))
  }

  /** Which element of a language entry carries the active marking. */
  datatype Target = Items | Links

  function TargetOf(linkActive: string): Target
  {
    if linkActive == "link" then Links else Items
  }

  /** One `li` with its `a`: the code (datum and `hreflang`), the `href`, the text, and the
    * classes the navigation sets on the item and on the link. */
  datatype NavEntry = NavEntry(code: string, href: string, text: string,
                               itemClasses: set<string>, linkClasses: set<string>)

  /** `classed('is-active', active).classed(classes, true)` on a fresh element; the empty
    * class list adds no class. */
  function ActiveClasses(active: bool, classes: string): set<string>
  {
    (if active then {"is-active"} else {}) + (if classes == "" then {} else {classes})
  }

  function TargetClasses(e: NavEntry, target: Target): set<string>
  {
    if target == Links then e.linkClasses else e.itemClasses
  }

  function OtherClasses(e: NavEntry, target: Target): set<string>
  {
    if target == Links then e.itemClasses else e.linkClasses
  }

  function Hrefs(entries: seq<NavEntry>): seq<string>
  {
    seq(|entries|, i requires 0 <= i < |entries| => entries[i].href)
  }

  /** The `<head>` hints: the canonical URL and one alternate `href` per code. */
  datatype HeadLinks = HeadLinks(canonical: string, alternates: seq<string>)

  datatype Navigation = Navigation(entries: seq<NavEntry>, head: Option<HeadLinks>)

  /** An element with message markers: `data-message` (its key), the outer HTML of its
    * children, its replaced content (`None` while the original stands), and per attribute
    * name the key of its `data-message-<name>` marker together with the attribute values. */
  datatype MarkedElement = MarkedElement(message: Option<string>, children: seq<string>,
                                         content: Option<string>,
                                         attributeMessages: map<string, string>,
                                         attributes: map<string, string>)

  predicate Marked(e: MarkedElement, attributeNames: seq<string>)
  {
    e.message.Some? || exists a :: a in attributeNames && a in e.attributeMessages
  }

  function ChildArgs(e: MarkedElement): Args
  {
    Some(seq(|e.children|, i requires 0 <= i < |e.children| => Str(e.children[i])))
  }

  class Locale {
    const specs: Specs
    var lang: string
    var selectedLocale: Pack?

    /** The registry invariant: the selected pack is the one registered under `lang`,
      * or none when `lang` is not registered. */
    ghost predicate Valid()
      reads this
    {
      specs.Valid() && selectedLocale == specs.PackOf(lang)
    }

    constructor (specs: Specs := Specs([], map[]), lang: string := "en")
      requires specs.Valid()
      ensures Valid()
      ensures this.specs == specs && this.lang == lang
    {
      this.specs := specs;
      this.lang := lang;
      this.selectedLocale := specs.PackOf(lang);
    }

    /** Switches to a registered language; an unknown code changes nothing. */
    method Select(code: string) returns (pack: Pack?)
      requires Valid()
      modifies this
      ensures Valid()
      ensures code in specs.packs ==> lang == code && selectedLocale == specs.packs[code]
      ensures code !in specs.packs ==> lang == old(lang) && selectedLocale == old(selectedLocale)
      ensures pack == selectedLocale
    {
      if code in specs.packs {
        lang := code;
        selectedLocale := specs.packs[code];
      }
      pack := selectedLocale;
    }

    /** Whether reading the selected pack's messages throws: no pack is selected, or its
      * `messages` is a value that `in` refuses. */
    predicate MessagesUnreadable()
      reads this
    {
      || selectedLocale == null
      || ("messages" in selectedLocale.entries
          && !(selectedLocale.entries["messages"].Obj? || selectedLocale.entries["messages"].Arr?))
    }

    /** `messages[msg]` of the selected pack, when the pack has such a message. */
    function MessageTemplate(msg: string): (r: Outcome<Option<Value>>)
      reads this
      ensures r.Throws? <==> MessagesUnreadable()
    {
      if selectedLocale == null then Throws
      else if "messages" !in selectedLocale.entries then Returns(None)
      else
        var messages := selectedLocale.entries["messages"];
        match messages
        case Obj(m) => Returns(if msg in m then Some(m[msg]) else None)
        case Arr(_) => Returns(if Has(messages, msg).value then Some(Js.Get(messages, msg).value) else None)
        case _ => Throws
    }

    /** `message(msg, args, fallback)`. */
    function Message(msg: string, args: Args, format: Formatter, fallback: Value := Undefined): (r: Outcome<Value>)
      reads this
      ensures r.Throws? <==> MessagesUnreadable()
      ensures MessageTemplate(msg).Returns? && MessageTemplate(msg).value.Some? ==>
                r == Returns(Str(format(MessageTemplate(msg).value.value, args)))
      ensures MessageTemplate(msg) == Returns(None) && fallback != Undefined ==> r == Returns(fallback)
      ensures MessageTemplate(msg) == Returns(None) && fallback == Undefined ==>
                r == Returns(Str(Placeholder(msg, args)))
      ensures r.Returns? ==> r.value != Undefined
      ensures r == Returns(Null) <==> MessageTemplate(msg) == Returns(None) && fallback == Null
    {
      var template :- MessageTemplate(msg);
      if template.Some? then Returns(Str(format(template.value, args)))
      else Returns(DefinedOr(fallback, Str(Placeholder(msg, args))))
    }

    /** `attribute(name, key, fallback)`. */
    function Attribute(name: string, key: string, fallback: Value := Undefined): (r: Outcome<Value>)
      reads this
      ensures r.Throws? <==> || selectedLocale == null
                             || (name in selectedLocale.entries
                                 && !(selectedLocale.entries[name].Obj? || selectedLocale.entries[name].Arr?))
      ensures selectedLocale != null && name in selectedLocale.entries
              && selectedLocale.entries[name].Obj? && key in selectedLocale.entries[name].fields ==>
                r == Returns(selectedLocale.entries[name].fields[key])
      ensures selectedLocale != null
              && (name !in selectedLocale.entries
                  || (selectedLocale.entries[name].Obj? && key !in selectedLocale.entries[name].fields)) ==>
                r == Returns(DefinedOr(fallback, Str(key)))
      ensures r == Returns(Undefined) ==> selectedLocale != null && name in selectedLocale.entries
    {
      if selectedLocale == null then Throws
      else if name !in selectedLocale.entries then Returns(DefinedOr(fallback, Str(key)))
      else
        var group := selectedLocale.entries[name];
        var found :- Has(group, key);
        if found then Js.Get(group, key) else Returns(DefinedOr(fallback, Str(key)))
    }

    /** `retrieve(external, key, fallback)`: `external` is keyed by language code. An
      * explicit `undefined` key takes the default, `null`. */
    function Retrieve(external: Value, key: Value := Null, fallback: Value := Undefined): (r: Outcome<Value>)
      reads this
      ensures external == Undefined || external == Null ==> r == Throws
      ensures r.Returns? ==> r.value != Undefined
      ensures external.Obj? && (key == Null || key == Undefined) ==>
                r == Returns(DefinedOr(Entry(external.fields, lang), DefinedOr(fallback, Null)))
      ensures external.Obj? && Entry(external.fields, lang).Obj? && key.Str? ==>
                r == Returns(DefinedOr(Entry(Entry(external.fields, lang).fields, key.s), DefinedOr(fallback, key)))
      ensures external.Obj? && Entry(external.fields, lang) == Undefined && key != Null && key != Undefined ==>
                r == Returns(DefinedOr(fallback, key))
      ensures external.Obj? && Entry(external.fields, lang) == Null && key != Null && key != Undefined ==> r == Throws
    {
      var k := if key == Undefined then Null else key;
      var result :- Js.Get(external, lang);
      var found :- if result != Undefined && k != Null then Js.Get(result, ToString(k)) else Returns(result);
      Returns(DefinedOr(found, DefinedOr(fallback, k)))
    }

    /** `get(name)`: the raw entry of the selected pack. */
    function Get(name: string): (r: Outcome<Value>)
      reads this
      ensures Valid() && lang in specs.packs ==> r == Returns(Field(specs.packs[lang], name))
      ensures Valid() && lang !in specs.packs ==> r == Throws
    {
      if selectedLocale == null then Throws else Returns(Field(selectedLocale, name))
    }

    /** The entry `generateNavigation` makes for a registered code. */
    function EntryFor(code: string, href: string, target: Target, classes: string): NavEntry
      reads this
      requires code in specs.packs
    {
      var marked := ActiveClasses(specs.packs[code] == selectedLocale, classes);
      NavEntry(code, href, JoinPart(Field(specs.packs[code], "language")),
               if target == Items then marked else {},
               if target == Links then marked else {})
    }

    /** `generateNavigation(nav, page, query, linkActive, classes, hash)` on an empty container. */
    method GenerateNavigation(page: string, parse: Parser, query: string := "", linkActive: string := "item",
                              classes: string := "", hash: string := "") returns (nav: Navigation)
      requires Valid()
      ensures |nav.entries| == |specs.codes|
      ensures Hrefs(nav.entries) == UpdateNavigationLinks(specs.codes, LinkBaseOf(page, query, parse).page, query,
                                                          hash, LinkBaseOf(page, query, parse).separator)
      ensures forall i :: 0 <= i < |nav.entries| ==>
                && nav.entries[i].code == specs.codes[i]
                && nav.entries[i].text == JoinPart(Field(specs.packs[specs.codes[i]], "language"))
      ensures forall i :: 0 <= i < |nav.entries| ==>
                && TargetClasses(nav.entries[i], TargetOf(linkActive))
                   == ActiveClasses(specs.packs[specs.codes[i]] == selectedLocale, classes)
                && OtherClasses(nav.entries[i], TargetOf(linkActive)) == {}
      ensures LinkBaseOf(page, query, parse).url.None? ==> nav.head == None
      ensures LinkBaseOf(page, query, parse).url.Some? ==>
                var b := LinkBaseOf(page, query, parse);
                nav.head == Some(HeadLinks(b.page, UpdateNavigationLinks(specs.codes, b.page, query, "", b.separator)))
    {
      var b := LinkBaseOf(page, query, parse);
      var hrefs := UpdateNavigationLinks(specs.codes, b.page, query, hash, b.separator);
      var target := TargetOf(linkActive);
      var entries: seq<NavEntry> := [];
      for i := 0 to |specs.codes|
        invariant |entries| == i
        invariant forall k :: 0 <= k < i ==> entries[k] == EntryFor(specs.codes[k], hrefs[k], target, classes)
      {
        entries := entries + [EntryFor(specs.codes[i], hrefs[i], target, classes)];
      }
      var head := if b.url.Some? then Some(HeadLinks(b.page, UpdateNavigationLinks(specs.codes, b.page, query, "", b.separator)))
                  else None;
      nav := Navigation(entries, head);
    }

    /** The replacement `updateMessages` writes for a message marker, or `None` to keep the
      * element as it is: kept exactly when the message resolves to `null`. */
    function Replacement(msg: string, args: Args, format: Formatter, fallback: Value): (r: Outcome<Option<string>>)
      reads this
      ensures r.Throws? <==> MessagesUnreadable()
      ensures r == Returns(None) <==> MessageTemplate(msg) == Returns(None) && fallback == Null
      ensures r.Returns? && r.value.Some? ==> r.value.value == ToString(Message(msg, args, format, fallback).value)
    {
      var m :- Message(msg, args, format, fallback);
      Returns(if m == Null then None else Some(ToString(m)))
    }

    /** An element after the content pass of `updateMessages`: its content is replaced
      * unless the message resolves to `null`; the markers stay. */
    function ContentUpdated(e: MarkedElement, format: Formatter, fallback: Value): (r: MarkedElement)
      reads this
      ensures r.message == e.message && r.attributeMessages == e.attributeMessages
      ensures r.children == e.children && r.attributes == e.attributes
      ensures MessagesUnreadable() || e.message.None? ==> r == e
      ensures !MessagesUnreadable() && e.message.Some? ==>
                var m := Message(e.message.value, ChildArgs(e), format, fallback);
                && m.Returns?
                && (m.value == Null ==> r == e)
                && (m.value != Null ==> r == e.(content := Some(ToString(m.value))))
    {
      if e.message.None? then e
      else
        match Replacement(e.message.value, ChildArgs(e), format, fallback)
        case Returns(Some(html)) => e.(content := Some(html))
        case _ => e
    }

    /** An element after the pass of `updateMessages` over one attribute name: only that
      * attribute may change. */
    function AttributeUpdated(e: MarkedElement, name: string, format: Formatter, fallback: Value): (r: MarkedElement)
      reads this
      ensures r.message == e.message && r.attributeMessages == e.attributeMessages
      ensures r.children == e.children && r.content == e.content
      ensures forall a :: a in e.attributes && a != name ==> a in r.attributes && r.attributes[a] == e.attributes[a]
      ensures r.attributes.Keys <= e.attributes.Keys + {name}
      ensures MessagesUnreadable() || name !in e.attributeMessages ==> r == e
      ensures !MessagesUnreadable() && name in e.attributeMessages ==>
                var m := Message(e.attributeMessages[name], None, format, fallback);
                && m.Returns?
                && (m.value == Null ==> r == e)
                && (m.value != Null ==> r == e.(attributes := e.attributes[name := ToString(m.value)]))
    {
      if name !in e.attributeMessages then e
      else
        match Replacement(e.attributeMessages[name], None, format, fallback)
        case Returns(Some(v)) => e.(attributes := e.attributes[name := v])
        case _ => e
    }

    /** An element after the passes over the attribute names, in order. */
    function AttributesUpdated(e: MarkedElement, names: seq<string>, format: Formatter, fallback: Value): (r: MarkedElement)
      reads this
      ensures r.message == e.message && r.attributeMessages == e.attributeMessages
      ensures r.content == e.content && r.children == e.children
      ensures MessagesUnreadable() ==> r == e
    {
      if names == [] then e
      else AttributeUpdated(AttributesUpdated(e, names[..|names| - 1], format, fallback), names[|names| - 1], format, fallback)
    }

    /** The content pass at one element: the marked element gets its replacement content;
      * `false` when its message throws. */
    method UpdateContent(elements: array<MarkedElement>, i: nat, format: Formatter, fallback: Value)
      returns (ok: bool)
      requires i < elements.Length
      modifies elements
      ensures ok <==> !MessagesUnreadable() || old(elements[i]).message.None?
      ensures elements[..] == old(elements[..])[i := ContentUpdated(old(elements[i]), format, fallback)]
    {
      var e := elements[i];
      ok := true;
      if e.message.Some? {
        var r := Replacement(e.message.value, ChildArgs(e), format, fallback);
        if r.Throws? {
          return false;
        }
        if r.value.Some? {
          elements[i] := e.(content := r.value);
        }
      }
    }

    /** The attribute passes add no attribute except under one of the names. */
    lemma {:induction false} AttributesUpdatedKeys(e: MarkedElement, names: seq<string>, format: Formatter, fallback: Value)
      ensures AttributesUpdated(e, names, format, fallback).attributes.Keys <= e.attributes.Keys + set a | a in names
    {
      if names != [] {
        var front := names[..|names| - 1];
        var last := names[|names| - 1];
        AttributesUpdatedKeys(e, front, format, fallback);
        assert names == front + [last];
        assert (set a | a in names) == (set a | a in front) + {last};
      }
    }

    /** An attribute outside the names, or without a marker, keeps its value through the passes. */
    lemma {:induction false} AttributesUpdatedKeeps(e: MarkedElement, names: seq<string>, format: Formatter, fallback: Value,
                                                    a: string)
      requires a in e.attributes && (a !in names || a !in e.attributeMessages)
      ensures var r := AttributesUpdated(e, names, format, fallback);
              a in r.attributes && r.attributes[a] == e.attributes[a]
    {
      if names != [] {
        var front := names[..|names| - 1];
        assert names == front + [names[|names| - 1]];
        AttributesUpdatedKeeps(e, front, format, fallback, a);
      }
    }

    /** A marked name among the passes ends holding its message, or keeps its attribute as it
      * was when the message is `null`. */
    lemma {:induction false} AttributesUpdatedWrites(e: MarkedElement, names: seq<string>, format: Formatter, fallback: Value,
                                                     a: string)
      requires a in names && a in e.attributeMessages && !MessagesUnreadable()
      ensures var r := AttributesUpdated(e, names, format, fallback);
              var m := Message(e.attributeMessages[a], None, format, fallback);
              && m.Returns?
              && (m.value == Null ==> (a in r.attributes <==> a in e.attributes)
                                      && (a in e.attributes ==> r.attributes[a] == e.attributes[a]))
              && (m.value != Null ==> a in r.attributes && r.attributes[a] == ToString(m.value))
    {
      var front := names[..|names| - 1];
      var last := names[|names| - 1];
      assert names == front + [last];
      if a != last {
        AttributesUpdatedWrites(e, front, format, fallback, a);
      } else if a in front {
        AttributesUpdatedWrites(e, front, format, fallback, a);
      } else if a in e.attributes {
        AttributesUpdatedKeeps(e, front, format, fallback, a);
      } else {
        AttributesUpdatedKeys(e, front, format, fallback);
      }
    }

    /** The first pass of `updateMessages`: every element with a `data-message` marker gets
      * its replacement content. It stops at the first marker when messages cannot be read. */
    method ContentPass(elements: array<MarkedElement>, format: Formatter, fallback: Value) returns (completed: bool)
      modifies elements
      ensures completed <==> !MessagesUnreadable() || forall k :: 0 <= k < elements.Length ==> old(elements[k]).message.None?
      ensures forall k :: 0 <= k < elements.Length ==> elements[k] == ContentUpdated(old(elements[k]), format, fallback)
    {
      for i := 0 to elements.Length
        invariant forall k :: 0 <= k < i ==> elements[k] == ContentUpdated(old(elements[k]), format, fallback)
        invariant forall k :: i <= k < elements.Length ==> elements[k] == old(elements[k])
        invariant MessagesUnreadable() ==> forall k :: 0 <= k < i ==> old(elements[k]).message.None?
      {
        var ok := UpdateContent(elements, i, format, fallback);
        if !ok {
          return false;
        }
      }
      completed := true;
    }

    /** One attribute pass at one element: a marked element gets the attribute `name` set;
      * `false` when its message throws. */
    method UpdateAttribute(elements: array<MarkedElement>, i: nat, name: string, format: Formatter, fallback: Value)
      returns (ok: bool)
      requires i < elements.Length
      modifies elements
      ensures ok <==> !MessagesUnreadable() || name !in old(elements[i]).attributeMessages
      ensures elements[..] == old(elements[..])[i := AttributeUpdated(old(elements[i]), name, format, fallback)]
    {
      var e := elements[i];
      ok := true;
      if name in e.attributeMessages {
        var r := Replacement(e.attributeMessages[name], None, format, fallback);
        if r.Throws? {
          return false;
        }
        if r.value.Some? {
          elements[i] := e.(attributes := e.attributes[name := r.value.value]);
        }
      }
    }

    /** One attribute pass of `updateMessages`: every element with a `data-message-<name>`
      * marker gets the attribute `name` set. It stops at the first marker when messages
      * cannot be read. */
    method AttributePass(elements: array<MarkedElement>, name: string, format: Formatter, fallback: Value)
      returns (completed: bool)
      modifies elements
      ensures completed <==> !MessagesUnreadable() || forall k :: 0 <= k < elements.Length ==> name !in old(elements[k]).attributeMessages
      ensures forall k :: 0 <= k < elements.Length ==> elements[k] == AttributeUpdated(old(elements[k]), name, format, fallback)
    {
      for i := 0 to elements.Length
        invariant forall k :: 0 <= k < i ==> elements[k] == AttributeUpdated(old(elements[k]), name, format, fallback)
        invariant forall k :: i <= k < elements.Length ==> elements[k] == old(elements[k])
        invariant MessagesUnreadable() ==> forall k :: 0 <= k < i ==> name !in old(elements[k]).attributeMessages
      {
        var ok := UpdateAttribute(elements, i, name, format, fallback);
        if !ok {
          return false;
        }
      }
      completed := true;
    }

    /** The pass for the next attribute name, stated against the elements before any
      * attribute pass. */
    method NextAttributePass(elements: array<MarkedElement>, names: seq<string>, j: nat, format: Formatter,
                             fallback: Value, ghost before: seq<MarkedElement>) returns (completed: bool)
      requires j < |names| && |before| == elements.Length
      requires forall k :: 0 <= k < elements.Length ==>
                 elements[k] == AttributesUpdated(before[k], names[..j], format, fallback)
      modifies elements
      ensures completed <==> !MessagesUnreadable() || forall k :: 0 <= k < |before| ==> names[j] !in before[k].attributeMessages
      ensures forall k :: 0 <= k < elements.Length ==>
                elements[k] == AttributesUpdated(before[k], names[..j + 1], format, fallback)
    {
      assert names[..j + 1][..j] == names[..j];
      completed := AttributePass(elements, names[j], format, fallback);
    }

    /** The attribute passes of `updateMessages`, one per name in order. They stop at the
      * first marker when messages cannot be read. */
    method AttributePasses(elements: array<MarkedElement>, attributeNames: seq<string>, format: Formatter,
                           fallback: Value) returns (completed: bool)
      modifies elements
      ensures completed <==> (|| !MessagesUnreadable()
                              || forall k, a :: 0 <= k < elements.Length && a in attributeNames ==> a !in old(elements[k]).attributeMessages)
      ensures forall k :: 0 <= k < elements.Length ==>
                elements[k] == AttributesUpdated(old(elements[k]), attributeNames, format, fallback)
    {
      ghost var before := elements[..];
      completed := true;
      for j := 0 to |attributeNames|
        invariant forall k :: 0 <= k < elements.Length ==>
                    elements[k] == AttributesUpdated(before[k], attributeNames[..j], format, fallback)
        invariant MessagesUnreadable() ==>
                    forall k, a :: 0 <= k < |before| && a in attributeNames[..j] ==> a !in before[k].attributeMessages
      {
        completed := NextAttributePass(elements, attributeNames, j, format, fallback, before);
        if !completed {
          assert MessagesUnreadable() && attributeNames[j] in attributeNames;
          return;
        }
        assert attributeNames[..j + 1] == attributeNames[..j] + [attributeNames[j]];
      }
      assert attributeNames[..|attributeNames|] == attributeNames;
    }

    /** `updateMessages(selection, attributeNames, fallback)` over the marked elements of the
      * selection: the content pass, then one pass per attribute name. It stops at the first
      * message that throws, which happens exactly when messages cannot be read and some
      * element carries a marker; nothing has changed then. */
    method UpdateMessages(elements: array<MarkedElement>, attributeNames: seq<string>, format: Formatter,
                          fallback: Value := Undefined) returns (completed: bool)
      modifies elements
      ensures completed <==> !MessagesUnreadable() || forall k :: 0 <= k < elements.Length ==> !Marked(old(elements[k]), attributeNames)
      ensures MessagesUnreadable() ==> elements[..] == old(elements[..])
      ensures forall k :: 0 <= k < elements.Length ==>
                elements[k] == AttributesUpdated(ContentUpdated(old(elements[k]), format, fallback), attributeNames, format, fallback)
    {
      completed := ContentPass(elements, format, fallback);
      if completed {
        completed := AttributePasses(elements, attributeNames, format, fallback);
      }
    }
  }
}

=== FILE: locale_versions.dfy ===
/**
 * Where the registry of lib/Locale.js and its predecessor in lib/locale.js
 * agree and where they part, for two registries in the same state.
 */
module LocaleVersions {
  import opened Js
  import opened Urls
  import opened Packs
  import Locale
  import LegacyLocale

  /** Both registries hold the same packs, language and selected pack. */
  predicate SameState(c: Locale.Locale, l: LegacyLocale.Locale)
    reads c, l
  {
    c.specs == l.specs && c.lang == l.lang && c.selectedLocale == l.selectedLocale
  }

  /** A truthy template is formatted the same way by both, whatever the fallback. */
  lemma TruthyTemplatesAgree(c: Locale.Locale, l: LegacyLocale.Locale, msg: string, args: Locale.Args,
                             format: Locale.Formatter, fallback: Value)
    requires SameState(c, l)
    requires c.MessageTemplate(msg).Returns? && c.MessageTemplate(msg).value.Some?
    requires Truthy(c.MessageTemplate(msg).value.value)
    ensures c.Message(msg, args, format, fallback) == l.Message(msg, args, format)
    ensures l.Message(msg, args, format) == Returns(Str(format(c.MessageTemplate(msg).value.value, args)))
  {
    var messages := Field(c.selectedLocale, "messages");
    assert messages.Obj? || messages.Arr?;
  }

  /** A message missing from an object of messages: the current registry shows the
    * placeholder, the legacy one returns `undefined`. */
  lemma MissingMessageDiffers(c: Locale.Locale, l: LegacyLocale.Locale, msg: string, args: Locale.Args,
                              format: Locale.Formatter)
    requires SameState(c, l)
    requires c.selectedLocale != null
    requires Field(c.selectedLocale, "messages").Obj? && msg !in Field(c.selectedLocale, "messages").fields
    ensures c.Message(msg, args, format) == Returns(Str(Locale.Placeholder(msg, args)))
    ensures l.Message(msg, args, format) == Returns(Undefined)
  {
  }

  /** A stored attribute value that is falsy: the current registry returns it, the legacy
    * one returns the key instead. Truthy values agree. */
  lemma AttributeValues(c: Locale.Locale, l: LegacyLocale.Locale, name: string, key: string)
    requires SameState(c, l)
    requires c.selectedLocale != null
    requires Field(c.selectedLocale, name).Obj? && key in Field(c.selectedLocale, name).fields
    ensures var v := Field(c.selectedLocale, name).fields[key];
            && c.Attribute(name, key) == Returns(v)
            && l.Attribute(name, key) == Returns(if Truthy(v) then v else Str(key))
  {
  }

  /** With no entry for the language, the current `retrieve` falls back to the key (`null`
    * for an `undefined` key) while the legacy one returns `undefined`. */
  lemma RetrieveMissingLanguage(c: Locale.Locale, l: LegacyLocale.Locale, external: map<string, Value>, key: Value)
    requires SameState(c, l)
    requires c.lang !in external
    ensures c.Retrieve(Obj(external), key) == Returns(if key == Undefined then Null else key)
    ensures l.Retrieve(Obj(external), key) == Returns(Undefined)
  {
  }

  /** On a page that is not an absolute URL and has no query, both versions build the same
    * `href` when no hash is given. */
  lemma HrefsAgreeOnBarePages(page: string, query: string, code: string, parse: Parser)
    requires parse(page).None? && '?' !in page
    ensures var b := Locale.LinkBaseOf(page, query, parse);
            Locale.LinkHref(b.page, b.separator, query, code, "") == LegacyLocale.LegacyHref(page, query, code)
  {
    var b := Locale.LinkBaseOf(page, query, parse);
    assert b.page == page && b.separator == "?";
    var rest := (if query != "" then query + "=" else "") + code;
    assert Locale.LinkHref(b.page, b.separator, query, code, "") == page + "?" + rest;
  }

  /** On a page that already has a query, the legacy `href` adds a second "?" where the
    * current one joins with "&". */
  lemma HrefsDifferOnPagesWithQuery(page: string, query: string, code: string, parse: Parser)
    requires parse(page).None? && '?' in page
    ensures var b := Locale.LinkBaseOf(page, query, parse);
            Locale.LinkHref(b.page, b.separator, query, code, "") != LegacyLocale.LegacyHref(page, query, code)
  {
    var b := Locale.LinkBaseOf(page, query, parse);
    var current := Locale.LinkHref(b.page, b.separator, query, code, "");
    var legacy := LegacyLocale.LegacyHref(page, query, code);
    assert current[|page|] == '&';
    assert legacy[|page|] == '?';
  }
}

=== FILE: navbar.dfy ===
/**
 * The navigation bar of lib/Navbar.js: the configuration merge, the link-target
 * resolver, the renderer that dispatches over the node types, filling the
 * container with the language links and their hash-change refresh, and the
 * burger and fullscreen controls.
 *
 * HTML escaping (`mustache.escape`) and the literal markup of each template are
 * parameters: `escape`, and `layout`, which places the rendered parts of a node
 * into its template in the order the template interpolates them.
 */
module Navbar {
  import opened Js
  import opened Urls
  import Locale

  /** The defaults the caller's configuration overrides key by key. */
  const DefaultConfiguration: map<string, Value> :=
    map["container" := Str("nav"), "languages" := Str(""), "language_page" := Str(""),
        "language_query" := Str("lang"), "base_url" := Str("")]

  /** `{...defaultConfiguration, ...configuration}`. */
  function Configure(user: map<string, Value>): (config: map<string, Value>)
    ensures config.Keys == DefaultConfiguration.Keys + user.Keys
    ensures forall k :: k in user ==> config[k] == user[k]
    ensures forall k :: k in DefaultConfiguration && k !in user ==> config[k] == DefaultConfiguration[k]
  {
    DefaultConfiguration + user
  }

  /** The node types of the `types` table. */
  datatype NodeType = Brand | Link | Fullscreen | Image | Text | Burger | Menu | Start | End | Dropdown | Divider

  const NodeTypes: map<string, NodeType> :=
    map["brand" := Brand, "link" := Link, "fullscreen" := Fullscreen, "image" := Image, "text" := Text,
        "burger" := Burger, "menu" := Menu, "start" := Start, "end" := End, "dropdown" := Dropdown,
        "divider" := Divider]

  /** A template of literal markup: one per node type that has markup, and the icon span. */
  datatype Template = NodeTemplate(nodeType: NodeType) | IconTemplate

  /** The fields a dropdown gives its trigger before the item's own `link` fields. */
  const LinkDefaults: map<string, Value> := map["type" := Str("link"), "class" := Str("link")]

  /** One decorative bar of the burger. */
  const BurgerBar: string := "<span aria-hidden=\"true\"></span>"

  /** `s.repeat(n)`. */
  function Repeat(s: string, n: nat): (r: string)
    ensures |r| == n * |s|
  {
    if n == 0 then "" else s + Repeat(s, n - 1)
  }

  /** Repeating `m + n` times is repeating `m` times and then `n` times. */
  lemma {:induction false} RepeatAppend(s: string, m: nat, n: nat)
    ensures Repeat(s, m + n) == Repeat(s, m) + Repeat(s, n)
  {
    if m > 0 {
      calc {
        Repeat(s, m + n);
        s + Repeat(s, (m - 1) + n);
        { RepeatAppend(s, m - 1, n); }
        s + (Repeat(s, m - 1) + Repeat(s, n));
        (s + Repeat(s, m - 1)) + Repeat(s, n);
      }
    }
  }

  /** One repetition is the string itself. */
  lemma RepeatOnce(s: string)
    ensures Repeat(s, 1) == s
  {
    assert Repeat(s, 0) == "";
  }

  /** The burger of the navbar test: `lines: 3` gives three bars. */
  lemma BurgerBarsExample()
    ensures Repeat(BurgerBar, 3) == BurgerBar + BurgerBar + BurgerBar
  {
    RepeatOnce(BurgerBar);
    RepeatAppend(BurgerBar, 1, 1);
    RepeatAppend(BurgerBar, 2, 1);
  }

  predicate AllDigits(s: string)
  {
    forall i :: 0 <= i < |s| ==> '0' <= s[i] <= '9'
  }

  /** The number a string of decimal digits denotes. */
  function DigitsValue(s: string): nat
    requires AllDigits(s)
  {
    if s == "" then 0 else 10 * DigitsValue(s[..|s| - 1]) + (s[|s| - 1] as int - '0' as int)
  }

  /** Reading back the decimal form of a number gives the number. */
  lemma {:induction false} DigitsValueOfNatToString(n: nat)
    ensures AllDigits(NatToString(n)) && DigitsValue(NatToString(n)) == n
  {
    var s := NatToString(n);
    if n < 10 {
      assert s == [DigitChar(n)];
    } else {
      var prefix := NatToString(n / 10);
      DigitsValueOfNatToString(n / 10);
      assert s == prefix + [DigitChar(n % 10)];
      assert s[..|s| - 1] == prefix;
    }
  }

  /** The count `String.prototype.repeat` takes from a string: a string of digits is its
    * number, a minus sign before a non-zero number is a RangeError, anything else is 0. */
  function StringCount(s: string): Outcome<nat>
  {
    if s != "" && AllDigits(s) then Returns(DigitsValue(s))
    else if |s| > 1 && s[0] == '-' && AllDigits(s[1..]) && DigitsValue(s[1..]) > 0 then Throws
    else Returns(0)
  }

  /** The count `'…'.repeat(lines)` uses; a negative count is a RangeError. */
  function RepeatCount(v: Value): (r: Outcome<nat>)
    ensures v.Num? ==> (r.Throws? <==> v.n < 0) && (r.Returns? ==> r.value == v.n)
    ensures v == Undefined || v == Null ==> r == Returns(0)
  {
    match v
    case Num(n) => if n < 0 then Throws else Returns(n)
    case Bool(b) => Returns(if b then 1 else 0)
    case Str(s) => StringCount(s)
    case Arr(_) => StringCount(ToString(v))
    case _ => Returns(0)
  }

  /** A count written as a string of decimal digits repeats as often as the number itself. */
  lemma RepeatCountOfString(n: nat)
    ensures RepeatCount(Str(NatToString(n))) == RepeatCount(Num(n)) == Returns(n)
  {
    DigitsValueOfNatToString(n);
  }

  /** The class names of an icon given as parts: the first part as it is, every later part
    * prefixed with "fa-". */
  function IconParts(parts: seq<Value>): seq<string>
  {
    seq(|parts|, i requires 0 <= i < |parts| => if i == 0 then JoinPart(parts[0]) else "fa-" + ToString(parts[i]))
  }

  /** The class list of an icon: its class names separated by spaces. */
  function IconClasses(parts: seq<Value>): string
  {
    JoinStrings(IconParts(parts), " ")
  }

  /** A further part adds its "fa-" class name at the end. */
  lemma IconPartsAppend(parts: seq<Value>, part: Value)
    requires |parts| > 0
    ensures IconParts(parts + [part]) == IconParts(parts) + ["fa-" + ToString(part)]
  {
    var all := parts + [part];
    forall i | 0 <= i < |parts|
      ensures IconParts(all)[i] == IconParts(parts)[i]
    {
      assert all[i] == parts[i];
    }
  }

  /** Each further part adds one space and its "fa-" class to the list. */
  lemma IconClassesAppend(parts: seq<Value>, part: Value)
    requires |parts| > 0
    ensures IconClasses(parts + [part]) == IconClasses(parts) + " fa-" + ToString(part)
  {
    var last := "fa-" + ToString(part);
    calc {
      IconClasses(parts + [part]);
      { IconPartsAppend(parts, part); }
      JoinStrings(IconParts(parts) + [last], " ");
      { JoinStringsAppend(IconParts(parts), [last], " "); }
      IconClasses(parts) + " " + last;
      { assert " " + last == " fa-" + ToString(part); }
      IconClasses(parts) + " fa-" + ToString(part);
    }
  }

  /** The icon of the navbar test's fullscreen control. */
  lemma IconClassesExample()
    ensures IconClasses([Str("fas"), Str("arrows-alt")]) == "fas fa-arrows-alt"
  {
    IconClassesAppend([Str("fas")], Str("arrows-alt"));
    assert [Str("fas")] + [Str("arrows-alt")] == [Str("fas"), Str("arrows-alt")];
  }

  /** A single part is kept as it is. */
  lemma IconClassesSingle(part: Value)
    ensures IconClasses([part]) == JoinPart(part)
  {
  }

  function Codes(entries: seq<Locale.NavEntry>): seq<string>
  {
    seq(|entries|, i requires 0 <= i < |entries| => entries[i].code)
  }

  /** The entries with their `href`s replaced, nothing else changed. */
  function WithHrefs(entries: seq<Locale.NavEntry>, hrefs: seq<string>): (r: seq<Locale.NavEntry>)
    requires |hrefs| == |entries|
    ensures |r| == |entries|
    ensures forall i :: 0 <= i < |r| ==> r[i] == entries[i].(href := hrefs[i])
  {
    seq(|entries|, i requires 0 <= i < |entries| => entries[i].(href := hrefs[i]))
  }

  /** The separator the hash-change listener uses for the canonical URL. */
  function HashSeparator(canonical: ParsedUrl): string
  {
    if Search(canonical) == "" then "?" else "&"
  }

  /** The `href`s the hash-change listener gives the language links for a new hash equal
    * those a fresh navigation for that hash gives, provided that the canonical URL reads
    * back as itself and has already lost the language parameter and the hash. */
  lemma HashChangeMatchesGenerate(canonical: ParsedUrl, query: string, codes: seq<string>, hash: string, parse: Parser)
    requires parse(Href(canonical)) == Some(canonical)
    requires WithoutHash(WithoutParam(canonical, query)) == canonical
    ensures var b := Locale.LinkBaseOf(Href(canonical), query, parse);
            Locale.UpdateNavigationLinks(codes, Href(canonical), query, hash, HashSeparator(canonical))
            == Locale.UpdateNavigationLinks(codes, b.page, query, hash, b.separator)
  {
    var b := Locale.LinkBaseOf(Href(canonical), query, parse);
    assert b.url == Some(canonical);
    assert b.page == Href(canonical);
    assert b.separator == HashSeparator(canonical);
  }

  /** The language links of the navbar test: the page keeps its other parameter, and the
    * language and the hash follow it. */
  lemma LanguageLinksExample()
    ensures var canonical := ParsedUrl("https://example.test/index.html", [Param("x", "y")], "");
            Locale.UpdateNavigationLinks(["en", "nl"], Href(canonical), "l", "#abc", HashSeparator(canonical))
            == ["https://example.test/index.html?x=y&l=en#abc", "https://example.test/index.html?x=y&l=nl#abc"]
  {
    var canonical := ParsedUrl("https://example.test/index.html", [Param("x", "y")], "");
    assert QueryString(canonical.params) == "x=y";
    assert Href(canonical) == "https://example.test/index.html?x=y";
    assert HashSeparator(canonical) == "&";
    var hrefs := Locale.UpdateNavigationLinks(["en", "nl"], Href(canonical), "l", "#abc", HashSeparator(canonical));
    assert hrefs[0] == Locale.LinkHref(Href(canonical), "&", "l", "en", "#abc");
    assert hrefs[0] == "https://example.test/index.html?x=y&l=en#abc";
    assert hrefs[1] == "https://example.test/index.html?x=y&l=nl#abc";
  }

  /** The state of a burger control and the menu it targets. */
  datatype BurgerState = BurgerState(burgerActive: bool, targetActive: bool, ariaExpanded: string)

  /** A burger as rendered: closed, and `aria-expanded` "false". */
  const Closed: BurgerState := BurgerState(false, false, "false")

  /** The burger and its target agree and `aria-expanded` tells whether they are open. */
  predicate Synchronised(s: BurgerState)
  {
    s.burgerActive == s.targetActive && s.ariaExpanded == (if s.targetActive then "true" else "false")
  }

  /** A click: both flags become the negation of the target's flag, and `aria-expanded`
    * says whether the menu is now open. */
  function Toggle(s: BurgerState): (t: BurgerState)
    ensures t.targetActive == !s.targetActive && t.burgerActive == t.targetActive
    ensures t.ariaExpanded == "true" <==> t.targetActive
    ensures Synchronised(t)
  {
    BurgerState(!s.targetActive, !s.targetActive, if s.targetActive then "false" else "true")
  }

  /** Two clicks restore a synchronised state. */
  lemma ToggleTwice(s: BurgerState)
    requires Synchronised(s)
    ensures Toggle(Toggle(s)) == s
  {
  }

  /** A burger control bound by `setNavbarTrigger`. */
  class BurgerControl {
    var state: BurgerState

    constructor ()
      ensures state == Closed
    {
      state := Closed;
    }

    method Click()
      modifies this
      ensures state == Toggle(old(state))
    {
      state := Toggle(state);
    }
  }

  /** What a click on a fullscreen control asks of the platform. */
  datatype FullscreenRequest = RequestFullscreen | ExitFullscreen

  /** The fullscreen controls of the container, their `is-active` flags, and how many
    * `fullscreen` events have been dispatched on the container so far. The events carry no
    * state: `selection.dispatch` takes only `bubbles`, `cancelable` and `detail` from its
    * parameters, so `{isFullscreen}` leaves `detail` null, and an observer reads the
    * controls' flags instead. */
  class FullscreenControls {
    const active: array<bool>
    var notifications: nat

    constructor (count: nat)
      ensures fresh(active) && active.Length == count
      ensures forall i :: 0 <= i < count ==> !active[i]
      ensures notifications == 0
    {
      active := new bool[count](_ => false);
      notifications := 0;
    }

    /** `setFullscreen(isFullscreen)`. */
    method SetFullscreen(isFullscreen: bool)
      modifies this, active
      ensures forall i :: 0 <= i < active.Length ==> active[i] == isFullscreen
      ensures notifications == old(notifications) + 1
    {
      for i := 0 to active.Length
        invariant forall k :: 0 <= k < i ==> active[k] == isFullscreen
        invariant notifications == old(notifications)
      {
        active[i] := isFullscreen;
      }
      notifications := notifications + 1;
    }

    /** A click on control `i`: an exit when it shows fullscreen, a request otherwise. The
      * click changes no flag; only `SetFullscreen` does. */
    method Click(i: nat) returns (request: FullscreenRequest)
      requires i < active.Length
      ensures request == ExitFullscreen <==> active[i]
    {
      if active[i] {
        request := ExitFullscreen;
      } else {
        request := RequestFullscreen;
      }
    }
  }

  class Navbar {
    const config: map<string, Value>
    const locales: Locale.Locale
    /** `mustache.escape` applied to a string. */
    const escape: string -> string
    /** The literal markup of a template around its rendered parts. */
    const layout: (Template, seq<string>) -> string
    /** `new URL(text)`. */
    const parse: Parser
    /** `new URL(text, base)`. */
    const resolveUrl: (string, string) -> Option<ParsedUrl>

    /** The container's markup. */
    var markup: string
    /** The language navigation in the container; replacing the markup removes it. */
    var languageNav: Option<Locale.Navigation>
    /** The canonical URL the hash-change listener holds, once it is registered. */
    var canonical: Option<ParsedUrl>

    constructor (configuration: map<string, Value>, locales: Locale.Locale, escape: string -> string,
                 layout: (Template, seq<string>) -> string, parse: Parser,
                 resolveUrl: (string, string) -> Option<ParsedUrl>)
      ensures config == Configure(configuration) && this.locales == locales
      ensures this.escape == escape && this.layout == layout && this.parse == parse && this.resolveUrl == resolveUrl
      ensures markup == "" && languageNav == None && canonical == None
    {
      config := Configure(configuration);
      this.locales := locales;
      this.escape := escape;
      this.layout := layout;
      this.parse := parse;
      this.resolveUrl := resolveUrl;
      markup := "";
      languageNav := None;
      canonical := None;
    }

    /** `html(data)`. */
    function Html(data: Value): (r: string)
      ensures data == Undefined ==> r == ""
      ensures data != Undefined ==> r == escape(ToString(data))
    {
      if data == Undefined then "" else escape(ToString(data))
    }

    /** `locale(data)`: text in the current language. */
    function Resolve(data: Value): (r: Outcome<Value>)
      reads locales
      ensures data.Str? || data == Undefined ==> r == Returns(data)
      ensures r.Throws? <==> data == Null
      ensures data.Obj? ==>
                r == Returns(Locale.DefinedOr(Entry(data.fields, locales.lang),
                                              Locale.DefinedOr(Entry(data.fields, "en"), Null)))
      ensures data.Num? || data.Bool? ==> r == Returns(Null)
    {
      if data.Str? || data == Undefined then Returns(data)
      else
        match Js.Get(data, "en")
        case Throws => Throws
        case Returns(fallback) => locales.Retrieve(data, Null, fallback)
    }

    /** `link(data)`: the target of a link. */
    function Link(data: Value): (r: Outcome<Value>)
      reads locales
      decreases data
      ensures !(data.Obj? || data.Arr? || data == Null) ==> r == Returns(data)
      ensures data == Null ==> r == Throws
      ensures data.Arr? ==> (r.Returns? <==> LinkAll(data.items).Returns?)
      ensures data.Arr? && r.Returns? ==> r == Returns(Str(JoinValues(LinkAll(data.items).value, "")))
      ensures data.Obj? && Entry(data.fields, "config") != Undefined ==>
                r == Returns(Entry(config, ToString(data.fields["config"])))
      ensures data.Obj? && Entry(data.fields, "config") == Undefined && Entry(data.fields, "locale") == Str("lang") ==>
                r == Returns(Str(locales.lang))
      ensures data.Obj? && Entry(data.fields, "config") == Undefined && Entry(data.fields, "locale") != Undefined
              && Entry(data.fields, "locale") != Str("lang") ==>
                r == locales.Get(ToString(data.fields["locale"]))
      ensures data.Obj? && Entry(data.fields, "config") == Undefined && Entry(data.fields, "locale") == Undefined ==>
                r == Resolve(data)
    {
      match data
      case Arr(items) =>
        (match LinkAll(items)
         case Throws => Throws
         case Returns(parts) => Returns(Str(JoinValues(parts, ""))))
      case Obj(fields) =>
        if Entry(fields, "config") != Undefined then Returns(Entry(config, ToString(fields["config"])))
        else if Entry(fields, "locale") != Undefined then
          if fields["locale"] == Str("lang") then Returns(Str(locales.lang)) else locales.Get(ToString(fields["locale"]))
        else Resolve(data)
      case Null => Throws
      case _ => Returns(data)
    }

    /** The targets of the parts of an array link, in order; it throws when one part throws. */
    function LinkAll(items: seq<Value>): (r: Outcome<seq<Value>>)
      reads locales
      decreases items
      ensures r.Returns? <==> forall i :: 0 <= i < |items| ==> Link(items[i]).Returns?
      ensures r.Returns? ==> |r.value| == |items| && forall i :: 0 <= i < |items| ==> r.value[i] == Link(items[i]).value
    {
      if forall i :: 0 <= i < |items| ==> Link(items[i]).Returns? then
        Returns(seq(|items|, i reads locales requires 0 <= i < |items| && Link(items[i]).Returns? => Link(items[i]).value))
      else Throws
    }

    /** The targets of two lists of link parts, one after the other. */
    lemma LinkAllConcat(a: seq<Value>, b: seq<Value>)
      requires LinkAll(a).Returns? && LinkAll(b).Returns?
      ensures LinkAll(a + b) == Returns(LinkAll(a).value + LinkAll(b).value)
    {
      var items := a + b;
      forall i | 0 <= i < |items|
        ensures Link(items[i]).Returns?
      {
        if i >= |a| {
          assert items[i] == b[i - |a|];
        }
      }
      var expected := LinkAll(a).value + LinkAll(b).value;
      forall i | 0 <= i < |items|
        ensures LinkAll(items).value[i] == expected[i]
      {
        if i >= |a| {
          assert items[i] == b[i - |a|];
        }
      }
      assert LinkAll(items).value == expected;
    }

    /** An array link resolves to the concatenation of the resolutions of its two halves. */
    lemma LinkConcat(a: seq<Value>, b: seq<Value>)
      requires Link(Arr(a)).Returns? && Link(Arr(b)).Returns?
      ensures Link(Arr(a + b)) == Returns(Str(Link(Arr(a)).value.s + Link(Arr(b)).value.s))
    {
      LinkAllConcat(a, b);
      JoinValuesConcat(LinkAll(a).value, LinkAll(b).value);
    }

    /** `icon(data)`. */
    function Icon(data: Value): (r: string)
      ensures data == Undefined ==> r == ""
      ensures data.Arr? ==> r == layout(IconTemplate, [Html(Str(IconClasses(data.items)))])
      ensures data != Undefined && !data.Arr? ==> r == layout(IconTemplate, [Html(data)])
    {
      if data == Undefined then ""
      else layout(IconTemplate, [Html(if data.Arr? then Str(IconClasses(data.items)) else data)])
    }

    /** `build(structure)`. */
    function Build(structure: Value): (r: Outcome<string>)
      reads locales
      decreases Depth(structure), 2
      ensures structure.Obj? ==> r == Returns(Html(Resolve(structure).value))
      ensures structure == Null ==> r == Throws
      ensures structure.Arr? ==> (r.Returns? <==> BuildItems(structure.items).Returns?)
      ensures structure.Arr? && r.Returns? ==> r.value == JoinStrings(BuildItems(structure.items).value, "\n")
      ensures structure == Undefined || structure.Num? || structure.Bool? ==> r == Returns("")
    {
      if structure.Obj? || structure == Null then
        match Resolve(structure)
        case Throws => Throws
        case Returns(text) => Returns(Html(text))
      else if structure.Arr? then
        match BuildItems(structure.items)
        case Throws => Throws
        case Returns(parts) => Returns(JoinStrings(parts, "\n"))
      else if structure.Str? then
        // `_.map` over a string visits its characters, and each renders as "".
        Returns(JoinStrings(seq(|structure.s|, _ => ""), "\n"))
      else Returns("")
    }

    /** The renderings of the items of an array, in order; it throws when one item throws. */
    function BuildItems(items: seq<Value>): (r: Outcome<seq<string>>)
      reads locales
      decreases Depth(Arr(items)), 1
      ensures r.Returns? <==> forall i :: 0 <= i < |items| ==> RenderItem(items[i]).Returns?
      ensures r.Returns? ==> |r.value| == |items| && forall i :: 0 <= i < |items| ==> r.value[i] == RenderItem(items[i]).value
    {
      if forall i :: 0 <= i < |items| ==> RenderItem(items[i]).Returns? then
        Returns(seq(|items|, i reads locales requires 0 <= i < |items| && RenderItem(items[i]).Returns? =>
                               RenderItem(items[i]).value))
      else Throws
    }

    /** One item of an array: its type picks the template, an unknown type renders as "". */
    function RenderItem(item: Value): (r: Outcome<string>)
      reads locales
      decreases Depth(item), 5
      ensures r.Throws? ==> item.Obj? || item == Undefined || item == Null
      ensures item == Undefined || item == Null ==> r == Throws
      ensures item.Obj? && ToString(Entry(item.fields, "type")) !in NodeTypes ==> r == Returns("")
    {
      if item == Undefined || item == Null then Throws
      else if !item.Obj? then Returns("")
      else Render(map[], item)
    }

    /** The item with the fields of `base` under its own fields, rendered by its type. */
    function Render(base: map<string, Value>, item: Value): (r: Outcome<string>)
      reads locales
      requires base == map[] || base == LinkDefaults
      decreases Depth(item), 4
      ensures ToString(Entry(base + FieldsOf(item), "type")) !in NodeTypes ==> r == Returns("")
      ensures ToString(Entry(base + FieldsOf(item), "type")) == "divider" ==> r == Returns(layout(NodeTemplate(Divider), []))
      ensures ToString(Entry(base + FieldsOf(item), "type")) == "text" ==>
                r == (var t := Resolve(Entry(base + FieldsOf(item), "text")); if t.Throws? then Throws else Returns(Html(t.value)))
    {
      var fields := base + FieldsOf(item);
      var name := ToString(Entry(fields, "type"));
      if name !in NodeTypes then Returns("")
      else
        MergedDepth(base, item, "items");
        MergedDepth(base, item, "content");
        LinkShallower(base, item);
        RenderNode(NodeTypes[name], fields, item)
    }

    /** The template of node type `t` filled from the merged `fields` of `item`. */
    function RenderNode(t: NodeType, fields: map<string, Value>, item: Value): (r: Outcome<string>)
      reads locales
      requires Depth(Entry(fields, "items")) <= Depth(item) && Depth(Entry(fields, "content")) <= Depth(item)
      requires t == Dropdown ==> Depth(Entry(fields, "link")) < Depth(item)
      decreases Depth(item), 3
      ensures t == Divider ==> r == Returns(layout(NodeTemplate(Divider), []))
      ensures t == Text ==>
                r == (var t := Resolve(Entry(fields, "text")); if t.Throws? then Throws else Returns(Html(t.value)))
    {
      match t
      case Brand =>
        var items :- Build(Entry(fields, "items"));
        Returns(layout(NodeTemplate(Brand), [items]))
      case Link =>
        var cls := Entry(fields, "class");
        var url := Entry(fields, "url");
        var href :- if url == Undefined then Returns(Undefined) else this.Link(url);
        var title :- Resolve(Entry(fields, "title"));
        var content :- Build(Entry(fields, "content"));
        Returns(layout(NodeTemplate(NodeType.Link),
                       [Html(if Truthy(cls) then cls else Str("item")),
                        if url == Undefined then "" else "href=\"" + Html(href) + "\"",
                        Html(title), Icon(Entry(fields, "icon")), content]))
      case Fullscreen =>
        var title :- Resolve(Entry(fields, "title"));
        Returns(layout(NodeTemplate(Fullscreen), [Html(title), Icon(Entry(fields, "icon"))]))
      case Image =>
        var src :- this.Link(Entry(fields, "url"));
        var alt :- Resolve(Entry(fields, "alt"));
        Returns(layout(NodeTemplate(Image),
                       [Html(src), Html(alt), Html(Entry(fields, "width")), Html(Entry(fields, "height")),
                        Html(Entry(fields, "style"))]))
      case Text =>
        var text :- Resolve(Entry(fields, "text"));
        Returns(Html(text))
      case Burger =>
        var lines :- RepeatCount(Entry(fields, "lines"));
        Returns(layout(NodeTemplate(Burger), [Html(Entry(fields, "target")), Repeat(BurgerBar, lines)]))
      case Menu =>
        var items :- Build(Entry(fields, "items"));
        Returns(layout(NodeTemplate(Menu), [Html(Entry(fields, "id")), items]))
      case Start =>
        var items :- Build(Entry(fields, "items"));
        Returns(layout(NodeTemplate(Start), [items]))
      case End =>
        var items :- Build(Entry(fields, "items"));
        Returns(layout(NodeTemplate(End), [items]))
      case Dropdown =>
        var trigger :- Render(LinkDefaults, Entry(fields, "link"));
        var id := Entry(fields, "id");
        var items :- Build(Entry(fields, "items"));
        Returns(layout(NodeTemplate(Dropdown),
                       [Html(Entry(fields, "class")), trigger,
                        if id == Undefined then "" else "id=\"" + Html(id) + "\"", items]))
      case Divider =>
        Returns(layout(NodeTemplate(Divider), []))
    }

    /** An item of unknown type between other items leaves their renderings as they are:
      * it contributes one empty rendering at its place. */
    lemma SiblingsStillRender(before: seq<Value>, item: Value, after: seq<Value>)
      requires item.Obj? && ToString(Entry(item.fields, "type")) !in NodeTypes
      ensures var all := BuildItems(before + [item] + after);
              && (all.Returns? <==> BuildItems(before).Returns? && BuildItems(after).Returns?)
              && (all.Returns? ==> all.value == BuildItems(before).value + [""] + BuildItems(after).value)
    {
      var items := before + [item] + after;
      if BuildItems(before).Returns? && BuildItems(after).Returns? {
        assert RenderItem(item) == Returns("");
        assert [item][0] == item;
        assert BuildItems([item]).value == [""];
        BuildItemsConcat(before, [item]);
        BuildItemsConcat(before + [item], after);
      } else if BuildItems(before).Throws? {
        var i :| 0 <= i < |before| && RenderItem(before[i]).Throws?;
        assert items[i] == before[i];
      } else {
        var i :| 0 <= i < |after| && RenderItem(after[i]).Throws?;
        assert items[|before| + 1 + i] == after[i];
      }
    }

    /** The renderings of two lists of items, one after the other. */
    lemma BuildItemsConcat(a: seq<Value>, b: seq<Value>)
      requires BuildItems(a).Returns? && BuildItems(b).Returns?
      ensures BuildItems(a + b) == Returns(BuildItems(a).value + BuildItems(b).value)
    {
      var items := a + b;
      var expected := BuildItems(a).value + BuildItems(b).value;
      forall i | 0 <= i < |items|
        ensures RenderItem(items[i]) == Returns(expected[i])
      {
        if i < |a| {
          assert items[i] == a[i];
        } else {
          assert items[i] == b[i - |a|];
        }
      }
      assert BuildItems(items).Returns?;
      assert BuildItems(items).value == expected;
    }

    /** Two arrays built one after the other: their markups joined by a line break. */
    lemma BuildConcat(a: seq<Value>, b: seq<Value>)
      requires |a| > 0 && |b| > 0
      requires Build(Arr(a)).Returns? && Build(Arr(b)).Returns?
      ensures Build(Arr(a + b)) == Returns(Build(Arr(a)).value + "\n" + Build(Arr(b)).value)
    {
      BuildItemsConcat(a, b);
      JoinStringsAppend(BuildItems(a).value, BuildItems(b).value, "\n");
    }

    /** The navbar test with an invalid type renders nothing. */
    lemma InvalidTypeExample()
      ensures Build(Arr([Obj(map["type" := Str("invalid")])])) == Returns("")
    {
      var item := Obj(map["type" := Str("invalid")]);
      assert ToString(Entry(item.fields, "type")) == "invalid";
    }

    /** The query parameter that carries the language. */
    function LanguageQuery(): string
    {
      ToString(Entry(config, "language_query"))
    }

    /** The URL `fill` resolves the language page against. */
    function BaseUrl(location: string): string
    {
      if Truthy(Entry(config, "base_url")) then ToString(config["base_url"]) else location
    }

    /** The canonical URL of `fill`: the language page resolved against the base URL,
      * without the language parameter and the hash; `None` when it does not resolve. */
    function CanonicalUrl(location: string): (c: Option<ParsedUrl>)
      reads this
      ensures c.None? <==> resolveUrl(ToString(Entry(config, "language_page")), BaseUrl(location)).None?
      ensures c.Some? ==> c.value.fragment == "" && forall p :: p in c.value.params ==> p.name != LanguageQuery()
    {
      match resolveUrl(ToString(Entry(config, "language_page")), BaseUrl(location))
      case None => None
      case Some(u) => Some(WithoutHash(WithoutParam(u, LanguageQuery())))
    }

    /** Whether `fill` generates a language navigation: the canonical URL resolves, and its
      * `href` parses again when `generateNavigation` makes a URL of it. */
    predicate NavigationGenerated(location: string)
      reads this
    {
      CanonicalUrl(location).Some? && parse(Href(CanonicalUrl(location).value)).Some?
    }

    /** `fill(structure)`: replaces the container's markup and, when a languages container is
      * configured, generates the language navigation from the canonical URL and registers
      * the hash-change listener. `completed` is false when it throws. */
    method Fill(structure: Value, location: string, locationHash: string) returns (completed: bool)
      requires locales.Valid()
      modifies this
      ensures Build(structure).Throws? ==>
                !completed && markup == old(markup) && languageNav == old(languageNav) && canonical == old(canonical)
      ensures Build(structure).Returns? ==> markup == Build(structure).value
      ensures Build(structure).Returns? && !Truthy(Entry(config, "languages")) ==>
                completed && languageNav == None && canonical == old(canonical)
      ensures Build(structure).Returns? && Truthy(Entry(config, "languages")) && !NavigationGenerated(location) ==>
                !completed && languageNav == None && canonical == old(canonical)
      ensures Build(structure).Returns? && Truthy(Entry(config, "languages")) && NavigationGenerated(location) ==>
                var c := CanonicalUrl(location).value;
                var b := Locale.LinkBaseOf(Href(c), LanguageQuery(), parse);
                && completed
                && canonical == Some(c)
                && languageNav.Some?
                && Codes(languageNav.value.entries) == locales.specs.codes
                && Locale.Hrefs(languageNav.value.entries)
                   == Locale.UpdateNavigationLinks(locales.specs.codes, b.page, LanguageQuery(), locationHash, b.separator)
                && forall i :: 0 <= i < |languageNav.value.entries| ==>
                     && languageNav.value.entries[i].linkClasses
                        == Locale.ActiveClasses(locales.specs.packs[locales.specs.codes[i]] == locales.selectedLocale, "navbar-item")
                     && languageNav.value.entries[i].itemClasses == {}
    {
      var built := Build(structure);
      if built.Throws? {
        return false;
      }
      markup := built.value;
      languageNav := None;
      if !Truthy(Entry(config, "languages")) {
        return true;
      }
      completed := FillLanguages(location, locationHash);
    }

    /** The languages part of `fill`. It throws when the language page does not resolve,
      * and when the canonical URL's `href` does not parse again: `generateNavigation` then
      * calls `includes` on a URL object, which has no such method. Nothing changes then. */
    method FillLanguages(location: string, locationHash: string) returns (completed: bool)
      requires locales.Valid()
      modifies this
      ensures markup == old(markup)
      ensures !NavigationGenerated(location) ==>
                !completed && languageNav == old(languageNav) && canonical == old(canonical)
      ensures NavigationGenerated(location) ==>
                var c := CanonicalUrl(location).value;
                var b := Locale.LinkBaseOf(Href(c), LanguageQuery(), parse);
                && completed
                && canonical == Some(c)
                && languageNav.Some?
                && Codes(languageNav.value.entries) == locales.specs.codes
                && Locale.Hrefs(languageNav.value.entries)
                   == Locale.UpdateNavigationLinks(locales.specs.codes, b.page, LanguageQuery(), locationHash, b.separator)
                && forall i :: 0 <= i < |languageNav.value.entries| ==>
                     && languageNav.value.entries[i].linkClasses
                        == Locale.ActiveClasses(locales.specs.packs[locales.specs.codes[i]] == locales.selectedLocale, "navbar-item")
                     && languageNav.value.entries[i].itemClasses == {}
    {
      var resolved := resolveUrl(ToString(Entry(config, "language_page")), BaseUrl(location));
      if resolved.None? {
        return false;
      }
      var query := LanguageQuery();
      var c := WithoutHash(WithoutParam(resolved.value, query));
      if parse(Href(c)).None? {
        return false;
      }
      var nav := locales.GenerateNavigation(Href(c), parse, query, "link", "navbar-item", locationHash);
      assert Codes(nav.entries) == locales.specs.codes;
      languageNav := Some(nav);
      canonical := Some(c);
      completed := true;
    }

    /** The hash-change listener: every language link gets the new hash, joined to the
      * canonical URL with "?" when it has no parameters left and "&" otherwise. */
    method HashChange(hash: string)
      requires languageNav.Some? && canonical.Some?
      modifies this
      ensures markup == old(markup) && canonical == old(canonical)
      ensures var entries := old(languageNav).value.entries;
              languageNav == Some(old(languageNav).value.(entries := WithHrefs(entries,
                Locale.UpdateNavigationLinks(Codes(entries), Href(canonical.value), LanguageQuery(), hash,
                                             HashSeparator(canonical.value)))))
    {
      var nav := languageNav.value;
      var c := canonical.value;
      var hrefs := Locale.UpdateNavigationLinks(Codes(nav.entries), Href(c), LanguageQuery(), hash, HashSeparator(c));
      languageNav := Some(nav.(entries := WithHrefs(nav.entries, hrefs)));
    }
  }

  /** A dropdown's `link` lies strictly inside the dropdown item, since the item holds the type. */
  lemma LinkShallower(base: map<string, Value>, item: Value)
    requires base == map[] || base == LinkDefaults
    ensures ToString(Entry(base + FieldsOf(item), "type")) == "dropdown" ==>
              Depth(Entry(base + FieldsOf(item), "link")) < Depth(item)
  {
    if ToString(Entry(base + FieldsOf(item), "type")) == "dropdown" {
      assert "type" in FieldsOf(item);
      if "link" in FieldsOf(item) {
        DepthOfField(item.fields, "link");
      }
    }
  }

  /** Field values of an item merged over `base` are no deeper than the item itself. */
  lemma MergedDepth(base: map<string, Value>, item: Value, k: string)
    requires base == map[] || base == LinkDefaults
    ensures Depth(Entry(base + FieldsOf(item), k)) <= Depth(item)
  {
    if k in FieldsOf(item) {
      DepthOfField(item.fields, k);
    }
  }
}

=== FILE: packs.dfy ===
/**
 * Language packs and the registry of them. A pack is an object, so two codes may
 * name the very same pack; the class reference stands for that object identity.
 */
module Packs {
  import opened Js

  /** One language's bundle: `language` (display name), `messages` and attribute groups. */
  class Pack {
    const entries: map<string, Value>

    constructor (entries: map<string, Value>)
      ensures this.entries == entries
    {
      this.entries := entries;
    }
  }

  /** The `specs` object: its keys in `Object.keys` order and the pack under each key. */
  datatype Specs = Specs(codes: seq<string>, packs: map<string, Pack>) {
    ghost predicate Valid()
    {
      && (forall i, j :: 0 <= i < j < |codes| ==> codes[i] != codes[j])
      && (forall c :: c in codes <==> c in packs)
    }

    /** `specs[code]`, with `null` for `undefined`. */
    function PackOf(code: string): Pack?
    {
      if code in packs then packs[code] else null
    }
  }

  /** `pack[name]`. */
  function Field(p: Pack, name: string): Value
  {
    Entry(p.entries, name)
  }
}

=== FILE: urls.dfy ===
/**
 * An absolute URL after parsing, reduced to what the language links use:
 * everything before the query, the query's name/value pairs in order, and the
 * fragment. Parsing itself (the WHATWG URL Standard) is not modelled; callers
 * receive it as a partial function `Parser`.
 */
module Urls {
  import opened Js

  datatype Param = Param(name: string, value: string)

  /** `base` is scheme, host and path; `fragment` is "" or starts with "#". */
  datatype ParsedUrl = ParsedUrl(base: string, params: seq<Param>, fragment: string)

  /** `new URL(text)`: `None` stands for the TypeError an unparsable text raises. */
  type Parser = string -> Option<ParsedUrl>

  function QueryString(params: seq<Param>): string
  {
    if |params| == 0 then ""
    else if |params| == 1 then params[0].name + "=" + params[0].value
    else params[0].name + "=" + params[0].value + "&" + QueryString(params[1..])
  }

  /** `url.search`: empty when no parameter is left, otherwise "?" and the query. */
  function Search(u: ParsedUrl): (r: string)
    ensures r == "" <==> u.params == []
  {
    if u.params == [] then "" else "?" + QueryString(u.params)
  }

  /** `url.toString()`. */
  function Href(u: ParsedUrl): string
  {
    u.base + Search(u) + u.fragment
  }

  function RemoveNamed(params: seq<Param>, name: string): (r: seq<Param>)
    ensures forall p :: p in r ==> p in params && p.name != name
    ensures forall p :: p in params && p.name != name ==> p in r
  {
    if params == [] then []
    else if params[0].name == name then RemoveNamed(params[1..], name)
    else [params[0]] + RemoveNamed(params[1..], name)
  }

  /** `url.searchParams.delete(name)`: drops every parameter called `name`, keeping the rest in order. */
  function WithoutParam(u: ParsedUrl, name: string): ParsedUrl
  {
    u.(params := RemoveNamed(u.params, name))
  }

  /** `url.hash = ''`. */
  function WithoutHash(u: ParsedUrl): ParsedUrl
  {
    u.(fragment := "")
  }

  /** Deleting a parameter a second time changes nothing. */
  lemma {:induction false} RemoveNamedIdempotent(params: seq<Param>, name: string)
    ensures RemoveNamed(RemoveNamed(params, name), name) == RemoveNamed(params, name)
  {
    if params != [] {
      RemoveNamedIdempotent(params[1..], name);
      if params[0].name != name {
        var rest := RemoveNamed(params[1..], name);
        assert ([params[0]] + rest)[1..] == rest;
      }
    }
  }

  /** A URL stripped of one parameter and of its fragment is left alone by the same stripping. */
  lemma CanonicalStable(u: ParsedUrl, name: string)
    ensures var c := WithoutHash(WithoutParam(u, name));
            WithoutHash(WithoutParam(c, name)) == c
  {
    RemoveNamedIdempotent(u.params, name);
  }
}
